=== FILE: README.md ===
# sorted_vector, modelled in Dafny

This project models two parts of the sorted_vector repository.

The first is the sorted-vector batch mutation engine of `timings.cpp`:
- a `std::vector<Elem>` kept in ascending key order, where `Elem` compares by its int key only;
- the linear key search `Contains`;
- the one-pass compaction `BatchErase`, which removes pre-found positions;
- `BatchDelete`, which finds each selected key with `lower_bound` in a window that moves forward and then calls `BatchErase`;
- the two re-sorting insertions `BatchInsert` and `BatchInsertMagic`;
- the test-data builders `CreateVector` and `RandomSelection`.

The second is the container logic of the accessory collections in `src/Decorator.cpp`:
- the intrusive singly linked list of the `SingleLinkedList` rifle: prepend, trailing-pointer unlink and `count`;
- the flagged sorted vector of the `Modern` rifle: `AddAccessory`, `RemoveAccessory` and `RemoveAccessories`.

The files are:
- `algorithms.dfy` (module `Algorithms`): the standard algorithms the code calls, generic over a key function. `std::sort` is stated as "sorted and a permutation". `std::lower_bound` is stated on a partitioned range. `std::make_heap` is stated as "a max-heap and a permutation". `Swap` exchanges two array slots for the stand-in selection sort and heap construction only; the `std::swap` of `src/Decorator.cpp:225` is modelled on sequences by `Modern.SwapWithLast`, which `Modern.SwapStep` and `Modern.PassStep` use.
- `sorted_vector.dfy` (module `SortedVector`): `Elem`, the vector as a class over an array buffer with a logical size, and the operations of `timings.cpp`. `BatchErase` is specified against `Without`, which removes a set of positions. `BatchDelete` is specified against `FirstOccurrences`.
- `timings_tests.dfy` (module `SortedVectorTests`): the GTest cases of `timings.cpp` as client methods. Their ensures clauses state what the EXPECT lines check, for every outcome of the shuffle.
- `single_linked_list.dfy` (module `SingleLinkedList`): the intrusive list, with a ghost sequence of the nodes it reaches.
- `modern_rifle.dfy` (module `Modern`): the accessory vector and its `sorted` flag. This module holds the code as written, the corrected removals, and the inputs on which the two differ.
- `decorator_tests.dfy` (module `DecoratorTests`): the GTest cases `TEST(SingleLinkedList, AllInOne)` and `TEST(Modern, AllInOne)` reduced to accessory counts, the scenarios of the findings below, and the call sequence AddAccessory-after-RemoveAccessories taken from the add/remove benchmark loop (`src/Decorator.cpp:447-460`), without its direct `RemoveAccessory` of line 459.

`std::vector` is modelled as a class with fields `data: array<Elem>` and `size: nat`. `resize` to a smaller size lowers `size`; growing past the buffer allocates a larger one. The randomness of `std::random_shuffle` becomes a parameter. That parameter may be any permutation of 0..n-1 (`IsShuffle`), so every scenario holds for every shuffle.

## Model

| member | source | states |
|---|---|---|
| SortedVector.Find | timings.cpp:22-26 | std::find with `Elem == int`: the first position whose key is x, or the size when there is none; no earlier element has key x |
| SortedVector.Contains | timings.cpp:22-26 | true exactly when some element has key x |
| SortedVector.Vector.Reserve | timings.cpp:105 | reserve on an empty vector: a fresh buffer of exactly the requested capacity holding no elements |
| SortedVector.Vector.PushBack | timings.cpp:108 | emplace_back: e becomes the last element and the others stay; the buffer is kept while there is spare capacity |
| SortedVector.Vector.Append | timings.cpp:74 | insert at end(): the vector becomes the old elements followed by the new ones, in order |
| SortedVector.BatchErase | timings.cpp:30-48 | with non-empty, strictly increasing, in-range positions, the vector becomes the old vector minus exactly those positions, the survivors in their original order, and is shorter by the number of positions |
| SortedVector.SkipFound | timings.cpp:38-42 | the inner loop passes over a run of consecutive positions to erase and keeps the compaction state |
| SortedVector.WithoutLength | timings.cpp:47 | removing a set of in-range positions shortens the sequence by the size of the set, so the resize by found_list.size() is exact |
| SortedVector.EraseKeepsPrefix | timings.cpp:33-34 | the elements before the first erased position stay where they were |
| SortedVector.WithoutOnlyLast | timings.cpp:43-45 | when the last position is the only one erased, the result is the vector without its last element, which is all the resize does |
| SortedVector.WithoutMembers | timings.cpp:30-48 | the survivors are exactly the elements at positions that are not erased |
| SortedVector.WithoutSorted | timings.cpp:30-48 | erasing positions from a sorted vector leaves it sorted |
| SortedVector.FindSorted | timings.cpp:58-68 | for an ascending, distinct selection of present keys, the positions collected with the moving lower_bound window are the first positions of each key, and they strictly increase |
| SortedVector.LowerBoundFindsFirst | timings.cpp:65 | on a sorted vector containing x, lower_bound's answer is the first position with key x |
| SortedVector.FoundAreFirstOccurrences | timings.cpp:63-68 | the collected positions, as a set, are the first occurrences of the selected keys |
| SortedVector.BatchDelete | timings.cpp:55-70 | with a non-empty selection of distinct, present keys, the vector loses the first element of each selected key, stays sorted, and is shorter by the size of the selection |
| SortedVector.DeletedKeysGone | timings.cpp:55-70 | on a vector with distinct keys, a key remains after the deletion exactly when it was there and was not selected |
| SortedVector.BatchInsert | timings.cpp:72-76 | the vector becomes a sorted permutation of the old elements plus the selection; its size grows by the size of the selection; every inserted key is contained |
| SortedVector.BatchInsertMagic | timings.cpp:78-83 | the same promise as BatchInsert, with the make_heap pass before the sort |
| SortedVector.InsertedKeysPresent | timings.cpp:72-83 | any permutation of the old elements plus the selection contains every inserted key |
| SortedVector.InsertStrategiesAgree | timings.cpp:72-83 | with pairwise-distinct keys the two insertion strategies give the same sequence, because a sorted permutation is unique |
| SortedVector.Iota | timings.cpp:102-103 | std::iota: n numbers with the value i at index i |
| SortedVector.IotaCounts | timings.cpp:102-103 | each of 0..n-1 occurs once in iota(n) and nothing else occurs |
| SortedVector.DecimalString | timings.cpp:108 | std::to_string of a non-negative number: a non-empty string of decimal digits |
| SortedVector.MakeElems | timings.cpp:107-108 | the elements built from the shuffled numbers, one per number and in the same order |
| SortedVector.MakeElemsCounts | timings.cpp:107-108 | building the elements keeps the count of every number |
| SortedVector.SortedShuffleIsCanonical | timings.cpp:98-111 | sorting the elements built from any shuffle of 0..n-1 puts `Elem{i, to_string(i % 100)}` at index i |
| SortedVector.CreateVector | timings.cpp:98-111 | a fresh vector of the given size whose element at index i is `Elem{i, to_string(i % 100)}`, for every shuffle |
| SortedVector.RandomSelection | timings.cpp:113-121 | with select_size < size, select_size distinct numbers, all below size |
| SortedVector.ShuffleIsDistinctRange | timings.cpp:113-121 | a shuffle of 0..n-1 repeats nothing and holds only numbers below n |
| SortedVectorTests.CanonicalContains | timings.cpp:22-26 | on the vector CreateVector builds, Contains(x) holds exactly for 0 <= x < n |
| SortedVectorTests.CreateScenario | timings.cpp:357-365 | TEST Create: size 100, and the payloads at 0, 50 and 99 are "0", "50" and "99" |
| SortedVectorTests.EraseEvenOfFive | timings.cpp:397-409 | erasing positions {0, 2, 4} of five elements leaves the elements at 1 and 3 |
| SortedVectorTests.EraseEndScenario | timings.cpp:397-409 | TEST BatchErase, "delete end": size 2 with keys 1 and 3 |
| SortedVectorTests.EraseHeadOfFive | timings.cpp:411-423 | erasing positions {0, 2, 3} of five elements leaves the elements at 1 and 4 |
| SortedVectorTests.EraseMiddleScenario | timings.cpp:411-423 | TEST BatchErase, "don't delete end": size 2 with keys 1 and 4 |
| SortedVectorTests.DeleteFromCanonical | timings.cpp:426-437 | BatchDelete on the vector built from 0..n-1: sorted, n - \|selection\| elements, and key x is present exactly when x < n and x was not selected |
| SortedVectorTests.MultiDeleteScenario | timings.cpp:426-437 | TEST MultiDelete: 90 sorted elements and none of the 10 selected keys |
| SortedVectorTests.MultiDeleteBugScenario | timings.cpp:439-450 | TEST MultiDeleteBug: deleting 1, 10, 98 and 99 from 100 leaves 96 sorted elements without those keys and with every other key |
| SortedVectorTests.InsertScenario | timings.cpp:452-484 | TESTs Insert and InsertMagic: after the deletion and the reinsertion there are 100 sorted elements containing every selected key |
| Algorithms.Sort | timings.cpp:75 | std::sort on the first n slots: sorted by key, a permutation, and the slots after n untouched |
| Algorithms.SortCopy | timings.cpp:58 | std::sort on a copy: a sorted permutation of the input |
| Algorithms.MakeHeap | timings.cpp:81 | std::make_heap: a max-heap by key and a permutation |
| Algorithms.LowerBound | timings.cpp:65 | std::lower_bound on a partitioned range: every element before the answer is less than x and none from it onwards is |
| Algorithms.SortedPermutationUnique | timings.cpp:72-83 | two sorted permutations of each other whose equal keys mean equal elements are the same sequence |
| SingleLinkedList.Decorator.constructor | src/Decorator.hpp:63 | a new accessory node starts unlinked: its next pointer is null |
| SingleLinkedList.Rifle.constructor | src/Decorator.hpp:106 | a new rifle's list is empty: the head pointer is null and no node is reached |
| SingleLinkedList.Rifle.AddAccessory | src/Decorator.cpp:51-55 | the new node becomes the head and the previous list follows it unchanged |
| SingleLinkedList.Count | src/Decorator.cpp:57-66 | count returns the number of nodes reached by following next until null |
| SingleLinkedList.Rifle.RemoveAccessory | src/Decorator.cpp:68-83 | the trailing-pointer walk unlinks the first node identical to tgt, keeps the rest in order and the list well formed, and changes nothing when tgt is absent |
| SingleLinkedList.UnlinkedLength | src/Decorator.cpp:68-83 | unlinking shortens the list by one exactly when tgt was on it |
| SingleLinkedList.UnlinkedMembers | src/Decorator.cpp:68-83 | on a list without repeats, unlinking removes tgt and only tgt |
| SingleLinkedList.UnlinkedAbsent | src/Decorator.cpp:68-83 | unlinking a node that is not on the list leaves the list as it is |
| SingleLinkedList.UnlinkedAt | src/Decorator.cpp:75-78 | unlinking the node at position i joins the nodes before it to the nodes after it |
| Modern.Rifle.constructor | src/Decorator.hpp:219-220 | a new rifle has an empty vector and the flag false |
| Modern.Rifle.AddAccessory | src/Decorator.cpp:193-198 | push_back, in any state, including a true flag over an unsorted vector: the new id goes to the back, not the front its comment names, and the flag becomes false, which makes the rifle consistent again |
| Modern.SortedIds | src/Decorator.cpp:204 | the ascending arrangement std::sort makes of the vector keeps its length (its order and elements are stated by the two lemmas below) |
| Modern.Rifle.EnsureSorted | src/Decorator.cpp:203-205 | the flag becomes true and the elements are only permuted; a false flag makes the vector its ascending arrangement; a true flag is trusted and nothing moves, sorted or not |
| Modern.SortedIdsSorted | src/Decorator.cpp:204 | the ascending arrangement is sorted and a permutation of the input |
| Modern.SortedIdsIs | src/Decorator.cpp:204 | any sorted permutation of the input is its ascending arrangement |
| Modern.LeastNotLess | src/Decorator.cpp:206 | the least element not less than x, if there is one; otherwise every element is less than x |
| Modern.LowerBoundIsLeastNotLess | src/Decorator.cpp:206 | on a sorted vector, lower_bound lands on the least element not less than x, or at the end when there is none |
| Modern.LeastNotLessOfPermutation | src/Decorator.cpp:203-206 | that element depends only on the elements, so sorting first does not change it |
| Modern.Rifle.RemoveAccessory | src/Decorator.cpp:201-209 | as written: the vector stays sorted with the flag true, and loses exactly the least element not less than tgt, whether or not it is tgt; it loses nothing only when every element is less than tgt |
| Modern.Rifle.RemoveAccessoryChecked | src/Decorator.cpp:200-209 | as its comment intends: sorted with the flag true, and exactly one copy of tgt goes, or nothing when tgt is absent |
| Modern.FirstNotLess | src/Decorator.cpp:222 | the first position of the window that is not less than x, or the window's end |
| Modern.FirstNotLessIsLowerBound | src/Decorator.cpp:222 | lower_bound's answer on a partitioned window is that first position |
| Modern.SwapWithLast | src/Decorator.cpp:225 | std::swap of the hit with back(): the two slots trade values, every other slot stays, and the elements are only permuted |
| Modern.SwapStep | src/Decorator.cpp:222-228 | one loop round: there is a hit exactly when some window element is not less than x; a hit at the first such position is swapped with the vector's last element, every other slot stays, and the window restarts after the hit and loses one slot; a miss changes nothing |
| Modern.SwapToBack | src/Decorator.cpp:220-229 | the loop over the targets: the elements are only permuted, the window's end drops by one per hit, and the pass is undefined once a lookup meets an inverted window |
| Modern.PassStep | src/Decorator.cpp:222-228 | one round computed with lower_bound and a swap is exactly SwapStep, and the window still agrees with the sorted vector the pass started from |
| Modern.SwapPass | src/Decorator.cpp:218-230 | the loop and the resize: defined exactly when SwapToBack is, and then the vector cut at the window's end |
| Modern.Rifle.RemoveAccessories | src/Decorator.cpp:211-235 | as written: the targets are sorted in place, the flag ends true, and when defined the vector is SwapToBack's cut, shorter by the number of hits |
| Modern.EraseFirst | src/Decorator.cpp:222-227 | one corrected round: the lower_bound hit is erased only when it equals the target; the vector stays sorted and loses one copy of the target or nothing |
| Modern.EraseAll | src/Decorator.cpp:220-229 | the corrected loop: the vector stays sorted and loses exactly one copy of each target that is present |
| Modern.Rifle.RemoveAccessoriesCorrected | src/Decorator.cpp:211-235 | as intended: the targets are sorted in place, the flag is true and truthful, and the vector is the old multiset minus the targets |
| Modern.RemoveAbsentErasesOther | src/Decorator.cpp:200-209 | on [5], removing the absent 3 takes away 5 |
| Modern.SwapToBackCounterexample | src/Decorator.cpp:225 | on [1..5] with targets [1, 2], the pass leaves [5, 1, 3, 4, 2] cut at 3, that is [5, 1, 3]: it holds the target 1, it has lost the non-target 4, and it is unsorted |
| Modern.FirstSwap | src/Decorator.cpp:225 | the first round of that input swaps 1 with the back |
| Modern.SecondSwap | src/Decorator.cpp:225 | the second round swaps 2 with the back, where the 1 now is |
| Modern.InvertedWindowCounterexample | src/Decorator.cpp:220-229 | on [1, 2] with targets [2, 3], the hit on 2 inverts the window and the lookup of 3 is undefined |
| Modern.BulkRemovalInverts | src/Decorator.cpp:220-229 | removing every element of the sorted [0..4] in ascending order, as the add/remove benchmark removes all its bullets (src/Decorator.cpp:458), inverts the window at the third hit and leaves the lookup of 3 undefined |
| Modern.CorrectedExample | src/Decorator.cpp:211-235 | the corrected removal of [1, 2] from [1..5] can only give [3, 4, 5] |
| DecoratorTests.LinkedAllInOne | src/Decorator.cpp:239-290 | TEST SingleLinkedList AllInOne: the accessory counts are 0, 1002, 1001, 1 and 0 |
| DecoratorTests.LinkedFit | src/Decorator.cpp:242-252 | fitting 1000 bullets, the HE pack and the scope gives counts 0 and 1002 |
| DecoratorTests.LinkedUnfit | src/Decorator.cpp:263-289 | removing the scope, then every bullet, then the HE pack gives counts 1001, 1 and 0 |
| DecoratorTests.FitBullets | src/Decorator.cpp:248-249 | n distinct new nodes are fitted, and they are exactly the rifle's nodes |
| DecoratorTests.UnfitBullets | src/Decorator.cpp:275-276 | removing every bullet leaves only the remaining accessory |
| DecoratorTests.ModernAllInOne | src/Decorator.cpp:334-385 | TEST Modern AllInOne: the vector sizes are 0, 1002, 1001, 1 and 0 |
| DecoratorTests.FitRange | src/Decorator.cpp:343-346 | fitting the ids 0..n-1 in order gives exactly that vector |
| DecoratorTests.UnfitRange | src/Decorator.cpp:370-371 | removing lo..mid-1 in order from the sorted range lo..hi-1 leaves the range mid..hi-1 |
| DecoratorTests.RangeAfterRemove | src/Decorator.cpp:370-371 | removing the least id of a sorted range leaves the range that starts one later |
| DecoratorTests.RangeAfterRemoveLast | src/Decorator.cpp:358 | removing the greatest id of a sorted range leaves the range that ends one earlier |
| DecoratorTests.RemoveAbsentScenario | src/Decorator.cpp:200-209 | on a rifle holding 5, RemoveAccessory(3) as written leaves nothing; the checked version leaves [5] |
| DecoratorTests.SwapToBackOutcome | src/Decorator.cpp:211-235 | RemoveAccessories' own promise, for targets [2, 1] on [1..5], pins the result to targets [1, 2] and vector [5, 1, 3] |
| DecoratorTests.SwapToBackScenario | src/Decorator.cpp:211-235 | a rifle fitted with 1..5 that has [2, 1] removed is left with [5, 1, 3], unsorted, under a true flag, and the targets are [1, 2] |
| DecoratorTests.CorrectedScenario | src/Decorator.cpp:211-235 | the corrected removal on the same input leaves [3, 4, 5] |
| DecoratorTests.InvertedWindowScenario | src/Decorator.cpp:220-229 | a rifle holding [1, 2] that has [2, 3] removed reaches an undefined lookup |
| DecoratorTests.ReAddAfterPassScenario | src/Decorator.cpp:447-460 | the rifle goes on after RemoveAccessories, as the benchmark loop does: the cut [5, 1, 3] left under a true flag takes the next round's AddAccessory, and a RemoveAccessory of 1 then leaves [3, 5, 7]; the direct RemoveAccessory of line 459 is outside the model (see Left out) |
| DecoratorTests.FitSevenRemoveOne | src/Decorator.cpp:450-455 | adding 7 to a rifle holding [5, 1, 3], whatever its flag, then removing 1 gives a consistent, sorted [3, 5, 7] |
| DecoratorTests.RemoveOneOfFour | src/Decorator.cpp:201-209 | a sorted vector that is [5, 1, 3, 7] less the lower_bound hit for 1 can only be [3, 5, 7] |

## Left out

- The `std::map` baselines are left out: `CreateMap` (`timings.cpp:84-96`) and the `Map*` benchmarks of `timings.cpp:123-352`, which time library containers only.
- The `VectorCreation`, `VectorMultiDelete`, `VectorMultiDeleteHalf`, `VectorBatchInsert`, `VectorBatchInsertHalf` and `VectorBatchInsertHalfMagic` benchmarks (`timings.cpp:134-144`, `timings.cpp:219-241`, `timings.cpp:263-278` and `timings.cpp:298-330`) and the `AddRemove` benchmarks of `src/Decorator.cpp:410-461` are not modelled as such. They time calls of the modelled operations (`CreateVector`, `BatchDelete`, `BatchInsert`, `BatchInsertMagic`, the rifles' add and remove) and add no behaviour of their own beyond the timing loop. The one call sequence of `AddRemove<Modern::Rifle, true>` (`src/Decorator.cpp:438-461`) that matters for the findings is modelled: its bulk `RemoveAccessories` of every bullet reaches the inverted window of the third finding (`Modern.BulkRemovalInverts`), and re-adding after a defined `RemoveAccessories` pass is `DecoratorTests.ReAddAfterPassScenario`.
- The `Eval` benchmarks (`src/Decorator.cpp:390-408`) time only `GetStats`, which is left out with the floating-point arithmetic below.
- `std::random_shuffle` is not modelled as a generator. Its output is a parameter: any permutation of 0..n-1.
- `std::to_string` is modelled only for non-negative numbers, as decimal digits. No modelled test compares a payload except Create; the payload compare of the `Lookup` test (`timings.cpp:374`) is outside the model with that test.
- The floating-point `WeaponState` arithmetic is left out: `Decorate`, `GetStats` and the float-tolerance `Compare` in `src/Decorator.hpp`. So are the stat values the `AllInOne` tests compare. Those tests are reduced to the number of fitted accessories at each step.
- `StandardLib::Rifle` (`src/Decorator.cpp:135-145`) is a thin wrapper over `std::set`.
- Pointer identity, the `std::variant` ordering of the Modern rifle's handles and virtual dispatch are abstracted to an ordered integer `Id`. In the Modern `AllInOne` scenario, bullet i is id i, the HE pack is 1000 and the scope is 1001.
- Integers are unbounded. `count` and the sizes cannot overflow at the sizes the code uses.
- The `Lookup` and `Delete` tests of `timings.cpp:367-392` are not modelled, nor are the `VectorLookup` and `VectorDelete` benchmarks (`timings.cpp:159-170`, `timings.cpp:188-201`). They exercise `std::lower_bound` and point deletes with `erase` directly, not an operation of this core.
- `Algorithms.Sort`, `Algorithms.SortCopy` and `Algorithms.MakeHeap` are modelled by their contracts. A selection sort and a sift-up heap construction stand in for the library's algorithms. Callers rely only on the contracts.
- `SortedVector.Vector.PushBack` does not model the library's growth factor. It only promises that the buffer is kept while there is spare capacity.
- `SingleLinkedList.Rifle.AddAccessory` requires that the node is not already on the list. Linking it in again would close a cycle, and the source does not check for it.
- `Modern.Rifle.RemoveAccessories` does not state the vector after a pass that reaches an inverted window. `lower_bound` on such a range is undefined behaviour, and only `defined == false` is promised.
- `Modern.Rifle.RemoveAccessories` does not promise `Valid()`. After the pass the flag may claim an order the vector lacks (see Findings).
- `Modern.Rifle.RemoveAccessory` requires `Valid()` (the flag true only over a sorted vector). The benchmark at `src/Decorator.cpp:458-459` calls it straight after `RemoveAccessories`, when the flag may be true over an unsorted vector; `lower_bound` then searches a range that is not partitioned, and that call is not modelled. Only an `AddAccessory`, which clears the flag, brings the rifle back into the model.
- `Modern.Rifle.RemoveAccessoryChecked` requires `Valid()` for the same reason, and likewise does not follow the rifle after `RemoveAccessories` without an `AddAccessory` in between.
- `Modern.Rifle.RemoveAccessories` requires `Valid()` as well, so a second pass straight after a first one, with no `AddAccessory` between them, is not modelled.

## Findings

| source | as written | input that shows it | evidently intended | confidence | as-written member | corrected member |
|---|---|---|---|---|---|---|
| src/Decorator.cpp:200-209 | `RemoveAccessory` erases whatever `lower_bound` lands on without comparing it with tgt, although its comment says it does nothing when tgt is not found | a rifle holding [5]; remove 3: the 5 is erased | erase the hit only when it equals tgt | not executed | Modern.RemoveAbsentErasesOther | Modern.Rifle.RemoveAccessoryChecked |
| src/Decorator.cpp:211-235 | `RemoveAccessories` swaps each hit with the vector's physical last element rather than the end of the shrinking window. The re-sort at the end is guarded by a flag already set true, so it never runs | a rifle holding [1, 2, 3, 4, 5]; remove [2, 1]: the result is [5, 1, 3] under a true flag, still holding 1 and missing 4 | remove one copy of each target and leave the vector sorted | not executed | Modern.SwapToBackCounterexample | Modern.Rifle.RemoveAccessoriesCorrected |
| src/Decorator.cpp:220-229 | a hit at new_end - 1 sets new_start one past new_end, and the next `lower_bound` gets an inverted range (undefined behaviour) | a rifle holding [1, 2]; remove [2, 3]. Also the add/remove benchmark (`src/Decorator.cpp:447-460`), which removes every bullet of a sorted vector in ascending order: on [0, 1, 2, 3, 4] minus [0, 1, 2, 3, 4] the third hit inverts the window (`Modern.BulkRemovalInverts`) | every lookup uses a valid range | not executed | Modern.InvertedWindowCounterexample | Modern.Rifle.RemoveAccessoriesCorrected |

=== FILE: algorithms.dfy ===
/**
 * The <algorithm> primitives the core relies on -- std::swap, std::sort,
 * std::lower_bound and std::make_heap -- each stated by the contract the C++
 * standard gives it. They are generic over the element type and take a key
 * function: the vector's elements are ordered by Elem::k alone, accessory ids
 * by their own value.
 */
module Algorithms {

  /** The elements of s ascend by key (std::is_sorted with operator<). */
  ghost predicate SortedBy<T>(s: seq<T>, key: T -> int)
  {
    forall p, q :: 0 <= p < q < |s| ==> key(s[p]) <= key(s[q])
  }

  /** The elements of s strictly ascend by key: sorted, and no two share a key. */
  ghost predicate StrictlySortedBy<T>(s: seq<T>, key: T -> int)
  {
    forall p, q :: 0 <= p < q < |s| ==> key(s[p]) < key(s[q])
  }

  /** No value occurs twice in s. */
  ghost predicate Distinct<T>(s: seq<T>)
  {
    forall p, q :: 0 <= p < q < |s| ==> s[p] != s[q]
  }

  /** The key of an int is the int itself (operator< on plain ints and ids). */
  function Identity(x: int): (y: int)
  {
    x
  }

  /**
   * s[lo..hi) is partitioned with respect to "key < x": every element whose key
   * is below x comes before every element whose key is not. This is all that
   * std::lower_bound asks of its range.
   */
  ghost predicate PartitionedBelow<T>(s: seq<T>, lo: nat, hi: nat, x: int, key: T -> int)
    requires lo <= hi <= |s|
  {
    forall p, q :: lo <= p < q < hi && key(s[q]) < x ==> key(s[p]) < x
  }

  /** A sorted range is partitioned by every bound. */
  lemma SortedIsPartitioned<T>(s: seq<T>, lo: nat, hi: nat, x: int, key: T -> int)
    requires lo <= hi <= |s| && SortedBy(s, key)
    ensures PartitionedBelow(s, lo, hi, x, key)
  {
  }

  /** The parent of position c (for 0 < c) has a key at least c's. */
  ghost predicate ParentDominates<T>(s: seq<T>, c: int, key: T -> int)
  {
    0 < c < |s| ==> key(s[(c - 1) / 2]) >= key(s[c])
  }

  /** Every parent's key is at least each of its children's (std::is_heap, max-heap). */
  ghost predicate IsMaxHeap<T>(s: seq<T>, key: T -> int)
  {
    forall c :: 0 < c < |s| ==> ParentDominates(s, c, key)
  }

  /** std::swap(a[i], a[j]). */
  method Swap<T>(a: array<T>, i: nat, j: nat)
    requires i < a.Length && j < a.Length
    modifies a
    ensures a[..] == old(a[..])[i := old(a[j])][j := old(a[i])]
  {
    a[i], a[j] := a[j], a[i];
  }

  /** Exchanging two positions below n keeps the multiset of a[..n]. */
  lemma SwapKeepsMultiset<T>(s: seq<T>, t: seq<T>, i: nat, j: nat, n: nat)
    requires i < n && j < n && n <= |s|
    requires t == s[i := s[j]][j := s[i]]
    ensures multiset(t[..n]) == multiset(s[..n])
  {
    assert t[..n] == s[..n][i := s[j]][j := s[i]];
  }

  /** The position of a least key in a[lo..hi) (the selection step of the sort). */
  method IndexOfMin<T>(a: array<T>, lo: nat, hi: nat, key: T -> int) returns (m: nat)
    requires lo < hi <= a.Length
    ensures lo <= m < hi
    ensures forall q :: lo <= q < hi ==> key(a[m]) <= key(a[q])
  {
    m := lo;
    var k := lo + 1;
    while k < hi
      invariant lo <= m < k <= hi
      invariant forall q :: lo <= q < k ==> key(a[m]) <= key(a[q])
    {
      if key(a[k]) < key(a[m]) {
        m := k;
      }
      k := k + 1;
    }
  }

  /**
   * std::sort(a, a + n): afterwards a[..n] ascends by key and is a permutation
   * of what it was; nothing beyond n is touched. The standard promises no more
   * than this (the sort is not stable), so callers rely on this contract only.
   */
  method Sort<T>(a: array<T>, n: nat, key: T -> int)
    requires n <= a.Length
    modifies a
    ensures SortedBy(a[..n], key)
    ensures multiset(a[..n]) == multiset(old(a[..n]))
    ensures a[n..] == old(a[n..])
  {
    var i := 0;
    while i < n
      invariant 0 <= i <= n
      invariant SelectedPrefix(a[..], i, n, key)
      invariant multiset(a[..n]) == multiset(old(a[..n]))
      invariant a[n..] == old(a[n..])
    {
      var m := IndexOfMin(a, i, n, key);
      ghost var before := a[..];
      Swap(a, i, m);
      SwapKeepsMultiset(before, a[..], i, m, n);
      SelectionStep(before, a[..], i, m, n, key);
      assert a[n..] == before[n..];
      i := i + 1;
    }
    assert SelectedPrefix(a[..], n, n, key);
  }

  /**
   * The state of a selection sort: s[..i] ascends and holds keys no larger
   * than any key in s[i..n].
   */
  ghost predicate SelectedPrefix<T>(s: seq<T>, i: nat, n: nat, key: T -> int)
    requires i <= n <= |s|
  {
    (forall p, q :: 0 <= p < q < i ==> key(s[p]) <= key(s[q]))
    && (forall p, q :: 0 <= p < i <= q < n ==> key(s[p]) <= key(s[q]))
  }

  /** Swapping a least key of s[i..n] into position i extends the sorted prefix. */
  lemma SelectionStep<T>(s: seq<T>, t: seq<T>, i: nat, m: nat, n: nat, key: T -> int)
    requires i <= m < n <= |s| && SelectedPrefix(s, i, n, key)
    requires forall q :: i <= q < n ==> key(s[m]) <= key(s[q])
    requires t == s[i := s[m]][m := s[i]]
    ensures SelectedPrefix(t, i + 1, n, key)
  {
  }

  /** std::sort applied to a copy held as a sequence (a vector taken by value). */
  method SortCopy<T>(s: seq<T>, key: T -> int) returns (r: seq<T>)
    ensures |r| == |s|
    ensures SortedBy(r, key)
    ensures multiset(r) == multiset(s)
  {
    var a := new T[|s|](i requires 0 <= i < |s| => s[i]);
    assert a[..a.Length] == s;
    Sort(a, a.Length, key);
    r := a[..a.Length];
  }

  /**
   * std::lower_bound(s + lo, s + hi, x): the first position in [lo, hi) whose
   * key is not less than x, or hi when there is none.
   */
  method LowerBound<T>(s: seq<T>, lo: nat, hi: nat, x: int, key: T -> int) returns (i: nat)
    requires lo <= hi <= |s|
    requires PartitionedBelow(s, lo, hi, x, key)
    ensures lo <= i <= hi
    ensures forall p :: lo <= p < i ==> key(s[p]) < x
    ensures forall p :: i <= p < hi ==> key(s[p]) >= x
  {
    var low, high := lo, hi;
    while low < high
      invariant lo <= low <= high <= hi
      invariant forall p :: lo <= p < low ==> key(s[p]) < x
      invariant forall p :: high <= p < hi ==> key(s[p]) >= x
    {
      var mid := low + (high - low) / 2;
      if key(s[mid]) < x {
        low := mid + 1;
      } else {
        high := mid;
      }
    }
    i := low;
  }

  /**
   * One exchange of the sift-up: when the key at j beats its parent's, swapping
   * the two moves the only possible violation of the heap order from j up to
   * the parent, and the parent's parent still dominates the parent's children.
   */
  lemma SiftStep<T>(s: seq<T>, t: seq<T>, i: nat, j: nat, key: T -> int)
    requires 0 < j <= i < |s|
    requires key(s[(j - 1) / 2]) < key(s[j])
    requires t == s[(j - 1) / 2 := s[j]][j := s[(j - 1) / 2]]
    requires forall c :: 0 < c <= i && c != j ==> ParentDominates(s, c, key)
    requires forall c :: 0 < c <= i && (c - 1) / 2 == j ==> key(s[(j - 1) / 2]) >= key(s[c])
    ensures forall c :: 0 < c <= i && c != (j - 1) / 2 ==> ParentDominates(t, c, key)
    ensures 0 < (j - 1) / 2 ==> forall c :: 0 < c <= i && (c - 1) / 2 == (j - 1) / 2 ==>
      key(t[((j - 1) / 2 - 1) / 2]) >= key(t[c])
  {
    var p := (j - 1) / 2;
    forall c | 0 < c <= i && c != p
      ensures ParentDominates(t, c, key)
    {
      var q := (c - 1) / 2;
      if c == j {
        // the old parent's key now sits below the larger key it was beaten by
      } else if q == j {
        // a child of j: its new parent holds the old parent's key
        assert t[q] == s[p];
      } else if q == p {
        // the sibling of j: its parent now holds the old key of j
        assert ParentDominates(s, c, key);
        assert t[q] == s[j];
      } else {
        assert ParentDominates(s, c, key);
        assert t[c] == s[c];
        assert q != j && q != p ==> t[q] == s[q];
      }
    }
    if 0 < p {
      var g := (p - 1) / 2;
      assert ParentDominates(s, p, key);
      assert g != j && g != p;
      forall c | 0 < c <= i && (c - 1) / 2 == p
        ensures key(t[g]) >= key(t[c])
      {
        if c != j {
          assert ParentDominates(s, c, key);
        }
      }
    }
  }

  /**
   * One insertion step of make_heap: a[..i] is already a max-heap; sifting
   * a[i] up towards the root makes a[..i+1] one.
   */
  method SiftUp<T>(a: array<T>, i: nat, n: nat, key: T -> int)
    requires i < n <= a.Length
    requires forall c :: 0 < c < i ==> ParentDominates(a[..], c, key)
    modifies a
    ensures forall c :: 0 < c <= i ==> ParentDominates(a[..], c, key)
    ensures multiset(a[..n]) == multiset(old(a[..n]))
    ensures a[n..] == old(a[n..])
  {
    var j := i;
    while j > 0 && key(a[(j - 1) / 2]) < key(a[j])
      invariant 0 <= j <= i
      invariant forall c :: 0 < c <= i && c != j ==> ParentDominates(a[..], c, key)
      invariant 0 < j ==> forall c :: 0 < c <= i && (c - 1) / 2 == j ==> key(a[(j - 1) / 2]) >= key(a[c])
      invariant multiset(a[..n]) == multiset(old(a[..n]))
      invariant a[n..] == old(a[n..])
    {
      var parent := (j - 1) / 2;
      ghost var before := a[..];
      Swap(a, parent, j);
      SwapKeepsMultiset(before, a[..], parent, j, n);
      SiftStep(before, a[..], i, j, key);
      assert a[n..] == before[n..];
      j := parent;
    }
    assert ParentDominates(a[..], j, key);
  }

  /**
   * std::make_heap(a, a + n): rearranges a[..n] into a max-heap by key. The
   * body inserts one element at a time and sifts it up; the contract is the
   * standard's: a heap, a permutation, and nothing beyond n touched.
   */
  method MakeHeap<T>(a: array<T>, n: nat, key: T -> int)
    requires n <= a.Length
    modifies a
    ensures IsMaxHeap(a[..n], key)
    ensures multiset(a[..n]) == multiset(old(a[..n]))
    ensures a[n..] == old(a[n..])
  {
    var i := 0;
    while i < n
      invariant 0 <= i <= n
      invariant forall c :: 0 < c < i ==> ParentDominates(a[..], c, key)
      invariant multiset(a[..n]) == multiset(old(a[..n]))
      invariant a[n..] == old(a[n..])
    {
      SiftUp(a, i, n, key);
      i := i + 1;
    }
    forall c | 0 < c < n
      ensures ParentDominates(a[..n], c, key)
    {
      assert ParentDominates(a[..], c, key);
    }
  }

  /** A value held at two different positions occurs at least twice. */
  lemma RepeatedCountsTwice<T>(s: seq<T>, i: nat, j: nat)
    requires i < j < |s| && s[i] == s[j]
    ensures multiset(s)[s[i]] >= 2
  {
    assert s == s[..j] + s[j..];
    assert s[..j][i] == s[i];
    assert s[j..][0] == s[i];
  }

  /** A sequence whose values never repeat holds each value at most once. */
  lemma {:induction false} DistinctCountsOnce<T>(s: seq<T>, x: T)
    requires Distinct(s)
    ensures multiset(s)[x] <= 1
  {
    if s != [] {
      assert s == [s[0]] + s[1..];
      DistinctCountsOnce(s[1..], x);
      if s[0] == x {
        assert x !in s[1..];
      }
    }
  }

  /** Distinctness is a property of the multiset: permutations keep it. */
  lemma PermutationKeepsDistinct<T>(s: seq<T>, t: seq<T>)
    requires multiset(s) == multiset(t) && Distinct(t)
    ensures Distinct(s)
  {
    forall p, q | 0 <= p < q < |s|
      ensures s[p] != s[q]
    {
      if s[p] == s[q] {
        RepeatedCountsTwice(s, p, q);
        DistinctCountsOnce(t, s[p]);
        assert false;
      }
    }
  }

  /**
   * When two sequences sorted by key hold the same multiset, their first
   * elements share the least key.
   */
  lemma SortedHeadsShareKey<T>(a: seq<T>, b: seq<T>, key: T -> int)
    requires SortedBy(a, key) && SortedBy(b, key)
    requires multiset(a) == multiset(b) && a != []
    ensures b != [] && key(a[0]) == key(b[0]) && b[0] in multiset(a)
  {
    assert a[0] in multiset(b);
    var i :| 0 <= i < |b| && b[i] == a[0];
    assert b[0] in multiset(a);
    var j :| 0 <= j < |a| && a[j] == b[0];
    assert key(b[0]) <= key(b[i]);
    assert key(a[0]) <= key(a[j]);
  }

  /**
   * Two sequences sorted by key that hold the same multiset of values are
   * equal, as long as no two different values in them share a key. This is
   * why every correct sort gives the same result on such input.
   */
  lemma {:induction false} SortedPermutationUnique<T>(a: seq<T>, b: seq<T>, key: T -> int)
    requires SortedBy(a, key) && SortedBy(b, key)
    requires multiset(a) == multiset(b)
    requires forall p, q :: 0 <= p < q < |a| && key(a[p]) == key(a[q]) ==> a[p] == a[q]
    ensures a == b
  {
    if a == [] {
      assert |b| == |multiset(b)| == 0;
    } else {
      SortedHeadsShareKey(a, b, key);
      var j :| 0 <= j < |a| && a[j] == b[0];
      assert a[0] == b[0];
      assert a == [a[0]] + a[1..];
      assert b == [b[0]] + b[1..];
      assert multiset(a[1..]) == multiset(a) - multiset{a[0]};
      assert multiset(b[1..]) == multiset(b) - multiset{b[0]};
      SortedPermutationUnique(a[1..], b[1..], key);
    }
  }
}

=== FILE: decorator_tests.dfy ===
/**
 * The AllInOne GTest cases of src/Decorator.cpp, reduced to the accessory
 * collections: a rifle gets 1000 bullets, an HE-bullet pack and a scope, and
 * then loses the scope, the bullets and the HE pack again. The stat values
 * those tests compare are floating point and are not part of this model; what
 * each scenario promises instead is how many accessories are fitted at each
 * point. The last scenarios replay, on small vectors, the inputs on which the
 * Modern rifle's removals depart from their evident intent.
 */
module DecoratorTests {
  import opened Algorithms
  import SingleLinkedList
  import opened Modern

  // ---------------------------------------------------------------------------
  // TEST(SingleLinkedList, AllInOne)

  /**
   * The SingleLinkedList rifle through the AllInOne sequence, with count
   * taken before anything is fitted, after everything is, and after each
   * removal step.
   */
  method LinkedAllInOne() returns (counts: seq<int>)
    ensures counts == [0, 1002, 1001, 1, 0]
  {
    var rifle, bullets, he, scope, fitted := LinkedFit();
    var removed := LinkedUnfit(rifle, bullets, he, scope);
    counts := fitted + removed;
  }

  /** The first half of the sequence: count with nothing fitted, then with 1000 bullets, the HE pack and the scope. */
  method LinkedFit() returns (rifle: SingleLinkedList.Rifle, bullets: seq<SingleLinkedList.Decorator>,
                              he: SingleLinkedList.Decorator, scope: SingleLinkedList.Decorator, counts: seq<int>)
    ensures fresh(rifle) && fresh(rifle.Nodes) && rifle.Valid()
    ensures |rifle.Nodes| == |bullets| + 2 && |bullets| == 1000 && Distinct(bullets)
    ensures he in rifle.Nodes && scope in rifle.Nodes && he != scope && he !in bullets && scope !in bullets
    ensures forall d :: d in bullets ==> d in rifle.Nodes
    ensures counts == [0, 1002]
  {
    rifle := new SingleLinkedList.Rifle();
    var none1 := SingleLinkedList.Count(rifle.accessories, rifle.Nodes);
    bullets := FitBullets(rifle, 1000);
    he := new SingleLinkedList.Decorator();
    rifle.AddAccessory(he);
    scope := new SingleLinkedList.Decorator();
    rifle.AddAccessory(scope);
    var all := SingleLinkedList.Count(rifle.accessories, rifle.Nodes);
    counts := [none1, all];
  }

  /** The second half: count after the scope goes, after the bullets go, and after the HE pack goes. */
  method LinkedUnfit(rifle: SingleLinkedList.Rifle, bullets: seq<SingleLinkedList.Decorator>,
                     he: SingleLinkedList.Decorator, scope: SingleLinkedList.Decorator) returns (counts: seq<int>)
    requires rifle.Valid() && |rifle.Nodes| == |bullets| + 2 && |bullets| == 1000 && Distinct(bullets)
    requires he in rifle.Nodes && scope in rifle.Nodes && he != scope && he !in bullets && scope !in bullets
    requires forall d :: d in bullets ==> d in rifle.Nodes
    modifies rifle, rifle.Nodes
    ensures counts == [1001, 1, 0]
  {
    ghost var before := rifle.Nodes;
    rifle.RemoveAccessory(scope);
    SingleLinkedList.UnlinkedLength(before, scope);
    SingleLinkedList.UnlinkedWithin(before, scope);
    SingleLinkedList.UnlinkedMembers(before, scope, he);
    forall d | d in bullets
      ensures d in rifle.Nodes
    {
      SingleLinkedList.UnlinkedMembers(before, scope, d);
    }
    var allButScope := SingleLinkedList.Count(rifle.accessories, rifle.Nodes);

    UnfitBullets(rifle, bullets, he);
    var onlyHe := SingleLinkedList.Count(rifle.accessories, rifle.Nodes);

    before := rifle.Nodes;
    rifle.RemoveAccessory(he);
    SingleLinkedList.UnlinkedLength(before, he);
    var none2 := SingleLinkedList.Count(rifle.accessories, rifle.Nodes);
    counts := [allButScope, onlyHe, none2];
  }

  /** Fits n new bullets, one AddAccessory each, to a rifle without accessories. */
  method FitBullets(rifle: SingleLinkedList.Rifle, n: nat) returns (bullets: seq<SingleLinkedList.Decorator>)
    requires rifle.Valid() && rifle.Nodes == []
    modifies rifle
    ensures rifle.Valid() && fresh(rifle.Nodes)
    ensures |rifle.Nodes| == |bullets| == n && Distinct(bullets)
    ensures forall d :: d in bullets <==> d in rifle.Nodes
  {
    bullets := [];
    while |bullets| < n
      invariant rifle.Valid() && fresh(rifle.Nodes)
      invariant |rifle.Nodes| == |bullets| <= n
      invariant forall d :: d in bullets <==> d in rifle.Nodes
      invariant Distinct(bullets)
    {
      var d := new SingleLinkedList.Decorator();
      rifle.AddAccessory(d);
      bullets := bullets + [d];
    }
  }

  /** Removes every bullet, one RemoveAccessory each, from a rifle that holds them and one more accessory, keep. */
  method UnfitBullets(rifle: SingleLinkedList.Rifle, bullets: seq<SingleLinkedList.Decorator>, keep: SingleLinkedList.Decorator)
    requires rifle.Valid() && |rifle.Nodes| == |bullets| + 1 && Distinct(bullets)
    requires keep in rifle.Nodes && keep !in bullets
    requires forall d :: d in bullets ==> d in rifle.Nodes
    modifies rifle, rifle.Nodes
    ensures rifle.Valid() && |rifle.Nodes| == 1 && keep in rifle.Nodes
  {
    for i := 0 to |bullets|
      invariant rifle.Valid() && |rifle.Nodes| == |bullets| + 1 - i
      invariant forall k :: 0 <= k < |rifle.Nodes| ==> rifle.Nodes[k] in old(rifle.Nodes)
      invariant keep in rifle.Nodes
      invariant forall j :: i <= j < |bullets| ==> bullets[j] in rifle.Nodes
    {
      ghost var before := rifle.Nodes;
      rifle.RemoveAccessory(bullets[i]);
      SingleLinkedList.UnlinkedLength(before, bullets[i]);
      SingleLinkedList.UnlinkedWithin(before, bullets[i]);
      SingleLinkedList.UnlinkedMembers(before, bullets[i], keep);
      forall j | i + 1 <= j < |bullets|
        ensures bullets[j] in rifle.Nodes
      {
        SingleLinkedList.UnlinkedMembers(before, bullets[i], bullets[j]);
      }
    }
  }

  // ---------------------------------------------------------------------------
  // TEST(Modern, AllInOne)

  /** The ids lo, lo + 1, ..., hi - 1 in ascending order. */
  function Range(lo: int, hi: int): (r: seq<Id>)
    requires lo <= hi
    ensures |r| == hi - lo && forall k :: 0 <= k < |r| ==> r[k] == lo + k
  {
    seq(hi - lo, k => lo + k)
  }

  /** A range ascends. */
  lemma RangeSorted(lo: int, hi: int)
    requires lo <= hi
    ensures SortedBy(Range(lo, hi), Identity)
  {
  }

  /**
   * RemoveAccessory(lo) on the range lo..hi-1 erases lo, its least element,
   * and leaves the range that starts one later.
   */
  lemma RangeRemoveFirst(lo: int, hi: int)
    requires lo < hi
    ensures LeastNotLess(Range(lo, hi), lo) == Some(lo)
    ensures multiset(Range(lo, hi)) - HitMultiset(Some(lo)) == multiset(Range(lo + 1, hi))
  {
    var r := Range(lo, hi);
    RangeSorted(lo, hi);
    LowerBoundIsLeastNotLess(r, 0, lo);
    assert r == [lo] + Range(lo + 1, hi);
  }

  /** After a removal that leaves the vector sorted, it is the range that starts one later. */
  lemma RangeAfterRemove(s: seq<Id>, lo: int, hi: int)
    requires lo < hi && SortedBy(s, Identity)
    requires multiset(s) == multiset(Range(lo, hi)) - HitMultiset(LeastNotLess(Range(lo, hi), lo))
    ensures s == Range(lo + 1, hi)
  {
    RangeRemoveFirst(lo, hi);
    RangeSorted(lo + 1, hi);
    SortedIdsUnique(s, Range(lo + 1, hi));
  }

  /**
   * The Modern rifle through the AllInOne sequence: bullet i is id i, the HE
   * pack is 1000 and the scope 1001. The sizes taken before anything is
   * fitted, after everything is, and after each removal step.
   */
  method ModernAllInOne() returns (sizes: seq<int>)
    ensures sizes == [0, 1002, 1001, 1, 0]
  {
    var rifle := new Modern.Rifle();
    var none1 := |rifle.accessories|;
    FitRange(rifle, 1002);
    var all := |rifle.accessories|;

    // The scope is the greatest id: the hit of lower_bound is the scope itself.
    rifle.RemoveAccessory(1001);
    RangeAfterRemoveLast(rifle.accessories, 0, 1002);
    var allButScope := |rifle.accessories|;

    UnfitRange(rifle, 0, 1000, 1001);
    var onlyHe := |rifle.accessories|;

    rifle.RemoveAccessory(1000);
    RangeAfterRemove(rifle.accessories, 1000, 1001);
    var none2 := |rifle.accessories|;
    sizes := [none1, all, allButScope, onlyHe, none2];
  }

  /** Fits the ids 0, 1, ..., n - 1 in that order, one AddAccessory each. */
  method FitRange(rifle: Modern.Rifle, n: nat)
    requires rifle.Valid() && rifle.accessories == []
    modifies rifle
    ensures rifle.Valid() && rifle.accessories == Range(0, n)
  {
    for i := 0 to n
      invariant rifle.Valid() && rifle.accessories == Range(0, i)
    {
      rifle.AddAccessory(i);
    }
  }

  /** Removes the ids lo, ..., mid - 1 in that order, one RemoveAccessory each, from the sorted range lo..hi-1. */
  method UnfitRange(rifle: Modern.Rifle, lo: int, mid: int, hi: int)
    requires lo <= mid < hi
    requires rifle.Valid() && rifle.sorted && rifle.accessories == Range(lo, hi)
    modifies rifle
    ensures rifle.Valid() && rifle.sorted && rifle.accessories == Range(mid, hi)
  {
    for i := lo to mid
      invariant rifle.Valid() && rifle.sorted && rifle.accessories == Range(i, hi)
    {
      rifle.RemoveAccessory(i);
      RangeAfterRemove(rifle.accessories, i, hi);
    }
  }

  /**
   * RemoveAccessory(hi - 1) on the range lo..hi-1 erases its greatest
   * element, hi - 1, and leaves the range that ends one earlier.
   */
  lemma RangeAfterRemoveLast(s: seq<Id>, lo: int, hi: int)
    requires lo < hi && SortedBy(s, Identity)
    requires multiset(s) == multiset(Range(lo, hi)) - HitMultiset(LeastNotLess(Range(lo, hi), hi - 1))
    ensures s == Range(lo, hi - 1)
  {
    var r := Range(lo, hi);
    RangeSorted(lo, hi);
    LowerBoundIsLeastNotLess(r, hi - lo - 1, hi - 1);
    assert r == Range(lo, hi - 1) + [hi - 1];
    RangeSorted(lo, hi - 1);
    SortedIdsUnique(s, Range(lo, hi - 1));
  }

  // ---------------------------------------------------------------------------
  // The Modern rifle's removals on the inputs that expose them

  /** Sorting an ascending sequence leaves it as it is. */
  lemma SortedIdsOfSorted(s: seq<Id>)
    requires SortedBy(s, Identity)
    ensures SortedIds(s) == s
  {
    SortedIdsIs(s, s);
  }

  /** Sorting two ids that are out of order swaps them. */
  lemma SortedIdsPair(a: Id, b: Id)
    requires b < a
    ensures SortedIds([a, b]) == [b, a]
  {
    assert multiset([a, b]) == multiset([b, a]);
    SortedIdsIs([a, b], [b, a]);
  }

  /**
   * When the pass on an ascending vector is known, RemoveAccessories' promise
   * pins the outcome down: it was defined, and the vector is the pass's cut.
   */
  lemma PassOutcome(s: seq<Id>, targets: seq<Id>, after: seq<Id>, defined: bool, result: seq<Id>, end: nat, hits: nat)
    requires SortedBy(s, Identity) && end <= |result|
    requires SwapToBack(s, targets, 0, |s|, 0) == Pass(result, end, hits)
    requires defined <==> SwapToBack(SortedIds(s), targets, 0, |s|, 0).Pass?
    requires defined ==>
      var pass := SwapToBack(SortedIds(s), targets, 0, |s|, 0);
      after == pass.acc[..pass.end]
    ensures defined && after == result[..end]
  {
    SortedIdsOfSorted(s);
  }

  /** RemoveAccessories' promise for the targets 2 and 1 on the vector 1..5: the targets become [1, 2] and the vector [5, 1, 3]. */
  lemma SwapToBackOutcome(before: seq<Id>, given: seq<Id>, targets: seq<Id>, after: seq<Id>, defined: bool)
    requires before == [1, 2, 3, 4, 5] && given == [2, 1] && targets == SortedIds(given)
    requires defined <==> SwapToBack(SortedIds(before), targets, 0, |before|, 0).Pass?
    requires defined ==>
      var pass := SwapToBack(SortedIds(before), targets, 0, |before|, 0);
      after == pass.acc[..pass.end]
    ensures targets == [1, 2] && after == [5, 1, 3]
  {
    SortedIdsPair(2, 1);
    SwapToBackCounterexample();
    var result: seq<Id> := [5, 1, 3, 4, 2];
    FiveAscending(1, 2, 3, 4, 5);
    PassOutcome(before, targets, after, defined, result, 3, 2);
    TakeThree(result);
  }

  /** Five ids in ascending order make an ascending sequence; a solver aid for SwapToBackOutcome. */
  lemma FiveAscending(a: Id, b: Id, c: Id, d: Id, e: Id)
    requires a <= b <= c <= d <= e
    ensures SortedBy([a, b, c, d, e], Identity)
  {
  }

  /** The first three of five; a solver aid for SwapToBackOutcome's cut at 3. */
  lemma TakeThree(s: seq<Id>)
    requires |s| == 5
    ensures s[..3] == [s[0], s[1], s[2]]
  {
  }

  /** A rifle fitted with 5 alone: RemoveAccessory(3) takes the 5 off, although 3 was never fitted. */
  method RemoveAbsentScenario() returns (asWritten: seq<Id>, checked: seq<Id>)
    ensures asWritten == [] && checked == [5]
  {
    var rifle := new Modern.Rifle();
    rifle.AddAccessory(5);
    rifle.RemoveAccessory(3);
    RemoveAbsentErasesOther();
    asWritten := rifle.accessories;

    var other := new Modern.Rifle();
    other.AddAccessory(5);
    other.RemoveAccessoryChecked(3);
    checked := other.accessories;
    assert 5 in multiset(checked);
    assert |checked| == 1;
  }

  /** A rifle fitted with 1, 2, 3, 4 and 5, in that order. */
  method FitOneToFive() returns (rifle: Modern.Rifle)
    ensures fresh(rifle) && rifle.Valid() && rifle.accessories == [1, 2, 3, 4, 5]
  {
    rifle := new Modern.Rifle();
    rifle.AddAccessory(1);
    rifle.AddAccessory(2);
    rifle.AddAccessory(3);
    rifle.AddAccessory(4);
    rifle.AddAccessory(5);
  }

  /**
   * RemoveAccessories with the targets 2 and 1 on a rifle fitted with 1 to 5:
   * the targets are sorted in place, and the rifle is left with 5, 1 and 3
   * under a flag that claims ascending order.
   */
  method SwapToBackScenario() returns (rest: seq<Id>, targets: seq<Id>, flag: bool)
    ensures rest == [5, 1, 3] && targets == [1, 2] && flag
    ensures !SortedBy(rest, Identity)
  {
    var rifle := FitOneToFive();
    var tgt := new Id[2];
    tgt[0], tgt[1] := 2, 1;
    assert tgt[..] == [2, 1];
    ghost var before := rifle.accessories;
    var defined := rifle.RemoveAccessories(tgt);
    rest, targets, flag := rifle.accessories, tgt[..], rifle.sorted;
    SwapToBackOutcome(before, [2, 1], targets, rest, defined);
    CutIsWrong();
  }

  /**
   * The rifle goes on after RemoveAccessories, as the add/remove benchmark's
   * next round does: fitting 7 to the cut [5, 1, 3] clears the flag, and
   * RemoveAccessory(1) then sorts and takes the 1 off.
   */
  method ReAddAfterPassScenario() returns (rest: seq<Id>)
    ensures rest == [3, 5, 7]
  {
    var rifle := FitOneToFive();
    var tgt := new Id[2];
    tgt[0], tgt[1] := 2, 1;
    assert tgt[..] == [2, 1];
    ghost var before := rifle.accessories;
    var defined := rifle.RemoveAccessories(tgt);
    SwapToBackOutcome(before, [2, 1], tgt[..], rifle.accessories, defined);
    FitSevenRemoveOne(rifle);
    rest := rifle.accessories;
  }

  /** Fits 7 to a rifle holding [5, 1, 3], whatever its flag says, then removes 1. */
  method FitSevenRemoveOne(rifle: Modern.Rifle)
    requires rifle.accessories == [5, 1, 3]
    modifies rifle
    ensures rifle.Valid() && rifle.sorted && rifle.accessories == [3, 5, 7]
  {
    rifle.AddAccessory(7);
    ghost var fitted := rifle.accessories;
    rifle.RemoveAccessory(1);
    RemoveOneOfFour(fitted, rifle.accessories);
  }

  /** Sorted, and [5, 1, 3, 7] without lower_bound's hit for 1: exactly [3, 5, 7]. */
  lemma RemoveOneOfFour(fitted: seq<Id>, r: seq<Id>)
    requires fitted == [5, 1, 3] + [7] && SortedBy(r, Identity)
    requires multiset(r) == multiset(fitted) - HitMultiset(LeastNotLess(fitted, 1))
    ensures r == [3, 5, 7]
  {
    OneOfFourGone(fitted, r);
    SortedIdsUnique(r, [3, 5, 7]);
  }

  /** [5, 1, 3, 7] without lower_bound's hit for 1 holds 3, 5 and 7. */
  lemma OneOfFourGone(fitted: seq<Id>, r: seq<Id>)
    requires fitted == [5, 1, 3] + [7]
    requires multiset(r) == multiset(fitted) - HitMultiset(LeastNotLess(fitted, 1))
    ensures multiset(r) == multiset([3, 5, 7])
  {
    assert fitted == [5, 1, 3, 7];
    LeastOfFour();
    FourMultiset();
  }

  /** lower_bound of 1 in [5, 1, 3, 7], once sorted, lands on the 1. */
  lemma LeastOfFour()
    ensures LeastNotLess([5, 1, 3, 7], 1) == Some(1)
  {
    assert [5, 1, 3, 7][1..] == [1, 3, 7];
    assert [1, 3, 7][1..] == [3, 7];
  }

  /** Taking 1 out of 5, 1, 3 and 7 leaves 3, 5 and 7. */
  lemma FourMultiset()
    ensures multiset([5, 1, 3, 7]) - multiset{1} == multiset([3, 5, 7])
  {
    assert [5, 1, 3, 7] == [5] + [1] + [3] + [7];
    assert [3, 5, 7] == [3] + [5] + [7];
  }

  /** The corrected removal on the same input leaves 3, 4 and 5. */
  method CorrectedScenario() returns (rest: seq<Id>)
    ensures rest == [3, 4, 5]
  {
    var rifle := FitOneToFive();
    var tgt := new Id[2];
    tgt[0], tgt[1] := 2, 1;
    assert tgt[..] == [2, 1];
    rifle.RemoveAccessoriesCorrected(tgt);
    assert multiset([2, 1]) == multiset([1, 2]);
    CorrectedExample(rifle.accessories);
    rest := rifle.accessories;
  }

  /** RemoveAccessories with the targets 2 and 3 on a rifle fitted with 1 and 2 reaches an inverted window. */
  method InvertedWindowScenario() returns (defined: bool)
    ensures !defined
  {
    var rifle := new Modern.Rifle();
    rifle.AddAccessory(1);
    rifle.AddAccessory(2);
    var tgt := new Id[2];
    tgt[0], tgt[1] := 2, 3;
    assert tgt[..] == [2, 3];
    SortedIdsOfSorted([1, 2]);
    SortedIdsOfSorted([2, 3]);
    defined := rifle.RemoveAccessories(tgt);
    InvertedWindowCounterexample();
  }
}

=== FILE: modern_rifle.dfy ===
/**
 * The accessory vector of the Modern rifle in src/Decorator.cpp: a
 * std::vector of accessory handles with a flag that records whether it is
 * known to be in ascending order. Each handle (a std::variant of pointers,
 * ordered by alternative and then by address) is an abstract ordered Id here.
 */
module Modern {
  import opened Algorithms

  /** An accessory handle; handles are totally ordered. */
  type Id = int

  datatype Option<T> = None | Some(value: T)

  // ---------------------------------------------------------------------------
  // What lower_bound lands on

  /**
   * The least element of s that is not less than x, if there is one: the
   * element lower_bound finds in a sorted copy of s.
   */
  function LeastNotLess(s: seq<Id>, x: Id): (r: Option<Id>)
    ensures r.Some? ==> r.value in s && x <= r.value
    ensures r.Some? ==> forall y :: y in s && x <= y ==> r.value <= y
    ensures r.None? ==> forall y :: y in s ==> y < x
  {
    if s == [] then None
    else
      var rest := LeastNotLess(s[1..], x);
      assert forall y :: y in s ==> y == s[0] || y in s[1..];
      if s[0] < x then rest
      else if rest.Some? && rest.value < s[0] then rest
      else Some(s[0])
  }

  /** The answer depends only on which elements there are, not on their order. */
  lemma LeastNotLessOfPermutation(a: seq<Id>, b: seq<Id>, x: Id)
    requires multiset(a) == multiset(b)
    ensures LeastNotLess(a, x) == LeastNotLess(b, x)
  {
    var ra, rb := LeastNotLess(a, x), LeastNotLess(b, x);
    assert forall y :: y in a <==> y in b by {
      forall y
        ensures y in a <==> y in b
      {
        assert y in a <==> y in multiset(a);
        assert y in b <==> y in multiset(b);
      }
    }
    if ra.Some? && rb.Some? {
      assert ra.value <= rb.value && rb.value <= ra.value;
    }
  }

  /** The multiset of what lower_bound's hit removes: that one element, or nothing. */
  function HitMultiset(hit: Option<Id>): (m: multiset<Id>)
  {
    if hit.Some? then multiset{hit.value} else multiset{}
  }

  /** lower_bound on a sorted sequence from start: the first position in [start, |s|) whose element is not less than x, or |s|. */
  lemma LowerBoundIsLeastNotLess(s: seq<Id>, f: nat, x: Id)
    requires SortedBy(s, Identity)
    requires f <= |s|
    requires forall p :: 0 <= p < f ==> s[p] < x
    requires forall p :: f <= p < |s| ==> s[p] >= x
    ensures LeastNotLess(s, x) == if f < |s| then Some(s[f]) else None
  {
    var r := LeastNotLess(s, x);
    if f < |s| {
      assert s[f] in s;
      if r.None? {
        assert false;
      }
      var j :| 0 <= j < |s| && s[j] == r.value;
      if j < f {
        assert false;
      } else {
        assert s[f] <= s[j];
      }
    } else {
      forall y | y in s
        ensures y < x
      {
        var j :| 0 <= j < |s| && s[j] == y;
      }
    }
  }

  /** In a sorted sequence the elements before position f, and those after it, make up all but s[f]. */
  lemma EraseAtMultiset(s: seq<Id>, f: nat)
    requires f < |s|
    ensures multiset(s[..f] + s[f + 1..]) == multiset(s) - multiset{s[f]}
  {
    assert s == s[..f] + [s[f]] + s[f + 1..];
  }

  /** Erasing one position of a sorted sequence leaves it sorted. */
  lemma EraseAtSorted(s: seq<Id>, f: nat)
    requires f < |s| && SortedBy(s, Identity)
    ensures SortedBy(s[..f] + s[f + 1..], Identity)
  {
    var r := s[..f] + s[f + 1..];
    forall p, q | 0 <= p < q < |r|
      ensures r[p] <= r[q]
    {
      var p' := if p < f then p else p + 1;
      var q' := if q < f then q else q + 1;
      assert r[p] == s[p'] && r[q] == s[q'];
    }
  }

  /** Two ascending sequences with the same elements are the same sequence. */
  lemma SortedIdsUnique(a: seq<Id>, b: seq<Id>)
    requires SortedBy(a, Identity) && SortedBy(b, Identity)
    requires multiset(a) == multiset(b)
    ensures a == b
  {
    SortedPermutationUnique(a, b, Identity);
  }

  /** x placed in front of the first element of s that is not less than it. */
  function InsertSorted(x: Id, s: seq<Id>): (r: seq<Id>)
    ensures |r| == |s| + 1
  {
    if s == [] then [x]
    else if x <= s[0] then [x] + s
    else [s[0]] + InsertSorted(x, s[1..])
  }

  /** Insertion adds x to the elements of s. */
  lemma {:induction false} InsertSortedPermutes(x: Id, s: seq<Id>)
    ensures multiset(InsertSorted(x, s)) == multiset(s) + multiset{x}
  {
    if s != [] && x > s[0] {
      InsertSortedPermutes(x, s[1..]);
      assert s == [s[0]] + s[1..];
    }
  }

  /** Into an ascending sequence, insertion keeps the order; the least of x and s[0] comes first. */
  lemma {:induction false} InsertSortedSorted(x: Id, s: seq<Id>)
    requires SortedBy(s, Identity)
    ensures SortedBy(InsertSorted(x, s), Identity)
    ensures InsertSorted(x, s)[0] == if s == [] || x <= s[0] then x else s[0]
  {
    var r := InsertSorted(x, s);
    if s != [] && x > s[0] {
      assert SortedBy(s[1..], Identity);
      InsertSortedSorted(x, s[1..]);
      var rest := InsertSorted(x, s[1..]);
      assert r == [s[0]] + rest;
      assert s[0] <= rest[0];
      forall p, q | 0 <= p < q < |r|
        ensures r[p] <= r[q]
      {
        assert r[q] == rest[q - 1];
        if p > 0 {
          assert r[p] == rest[p - 1];
        }
      }
    }
  }

  /** The ascending arrangement of s: what std::sort makes of it. */
  function SortedIds(s: seq<Id>): (r: seq<Id>)
    ensures |r| == |s|
  {
    if s == [] then [] else InsertSorted(s[0], SortedIds(s[1..]))
  }

  /** SortedIds ascends and has the elements of s. */
  lemma {:induction false} SortedIdsSorted(s: seq<Id>)
    ensures SortedBy(SortedIds(s), Identity)
    ensures multiset(SortedIds(s)) == multiset(s)
  {
    if s != [] {
      SortedIdsSorted(s[1..]);
      InsertSortedSorted(s[0], SortedIds(s[1..]));
      InsertSortedPermutes(s[0], SortedIds(s[1..]));
      assert s == [s[0]] + s[1..];
    }
  }

  /** Any ascending arrangement of the elements of s is SortedIds(s). */
  lemma SortedIdsIs(s: seq<Id>, r: seq<Id>)
    requires SortedBy(r, Identity) && multiset(r) == multiset(s)
    ensures SortedIds(s) == r
  {
    SortedIdsSorted(s);
    SortedIdsUnique(SortedIds(s), r);
  }

  // ---------------------------------------------------------------------------
  // RemoveAccessories as written: the swap-to-back pass

  /** The outcome of RemoveAccessories' loop, or an inverted window handed to lower_bound (undefined behaviour). */
  datatype Pass = Pass(acc: seq<Id>, end: nat, hits: nat) | InvalidRange

  /**
   * The first position in [start, end) whose element is not less than x, or
   * end: what lower_bound returns on a window that is in ascending order.
   */
  function FirstNotLess(s: seq<Id>, start: nat, end: nat, x: Id): (f: nat)
    requires start <= end <= |s|
    ensures start <= f <= end
    ensures forall p :: start <= p < f ==> s[p] < x
    ensures f < end ==> s[f] >= x
    decreases end - start
  {
    if start == end || s[start] >= x then start else FirstNotLess(s, start + 1, end, x)
  }

  /** The part of the vector RemoveAccessories still searches, with the whole vector around it. */
  datatype Window = Window(acc: seq<Id>, start: nat, end: nat)

  /**
   * One round of RemoveAccessories' loop for target x: a lower_bound hit
   * inside [start, end) is swapped with the vector's LAST element, and the
   * window restarts after the hit and loses its last slot; a miss changes
   * nothing. The window may come out inverted (start > end).
   */
  function SwapStep(w: Window, x: Id): (r: Window)
    requires w.start <= w.end <= |w.acc|
    ensures |r.acc| == |w.acc| && multiset(r.acc) == multiset(w.acc)
    ensures r.end == w.end || r.end + 1 == w.end
    ensures r.end == w.end ==> r == w
    ensures r.end < w.end ==> w.start < r.start <= w.end && w.acc[r.start - 1] >= x && r.acc[|r.acc| - 1] == w.acc[r.start - 1]
    ensures r.end < w.end ==> forall p :: w.start <= p < r.start - 1 ==> w.acc[p] < x
    ensures (exists p :: w.start <= p < w.end && w.acc[p] >= x) ==> r.end < w.end
    ensures r.end < w.end ==> r.acc == SwapWithLast(w.acc, r.start - 1)
  {
    var f := FirstNotLess(w.acc, w.start, w.end, x);
    if f != w.end then
      Window(SwapWithLast(w.acc, f), f + 1, w.end - 1)
    else
      assert forall p :: w.start <= p < w.end ==> w.acc[p] < x;
      w
  }

  /**
   * std::swap of slot f with back(): the two slots trade places, every other
   * slot stays, and the elements are only permuted.
   */
  function SwapWithLast(s: seq<Id>, f: nat): (t: seq<Id>)
    requires f < |s|
    ensures |t| == |s| && t[f] == s[|s| - 1] && t[|s| - 1] == s[f]
    ensures forall p :: 0 <= p < |s| && p != f && p != |s| - 1 ==> t[p] == s[p]
    ensures multiset(t) == multiset(s)
  {
    var t := s[f := s[|s| - 1]][|s| - 1 := s[f]];
    SwapKeepsMultiset(s, t, f, |s| - 1, |s|);
    assert t[..|s|] == t && s[..|s|] == s;
    t
  }

  /**
   * The loop of RemoveAccessories as written, over the targets in order,
   * counting the hits. A target looked up after the window has inverted
   * (start > end) makes the whole pass undefined.
   */
  function SwapToBack(acc: seq<Id>, tgt: seq<Id>, start: nat, end: nat, hits: nat): (r: Pass)
    requires end <= |acc|
    ensures r.Pass? ==> |r.acc| == |acc| && r.end <= end && r.end + r.hits == end + hits
    ensures r.Pass? ==> hits <= r.hits <= hits + |tgt|
    ensures r.Pass? ==> multiset(r.acc) == multiset(acc)
    decreases |tgt|
  {
    if tgt == [] then Pass(acc, end, hits)
    else if start > end then InvalidRange
    else
      var w := SwapStep(Window(acc, start, end), tgt[0]);
      SwapToBack(w.acc, tgt[1..], w.start, w.end, if w.end < end then hits + 1 else hits)
  }

  /** On a window that agrees with an ascending sequence, lower_bound's precondition holds. */
  lemma SortedWindowPartitioned(acc: seq<Id>, orig: seq<Id>, start: nat, end: nat, x: Id)
    requires start <= end <= |acc| == |orig| && SortedBy(orig, Identity)
    requires forall p :: start <= p < end ==> acc[p] == orig[p]
    ensures PartitionedBelow(acc, start, end, x, Identity)
  {
    forall p, q | start <= p < q < end && acc[q] < x
      ensures acc[p] < x
    {
      assert orig[p] <= orig[q];
    }
  }

  /** lower_bound's answer is the first position of the window not less than x. */
  lemma FirstNotLessIsLowerBound(acc: seq<Id>, start: nat, end: nat, x: Id, found: nat)
    requires start <= found <= end <= |acc|
    requires forall p :: start <= p < found ==> acc[p] < x
    requires forall p :: found <= p < end ==> acc[p] >= x
    ensures FirstNotLess(acc, start, end, x) == found
  {
    var f := FirstNotLess(acc, start, end, x);
    if found < end {
      assert acc[found] >= x;
    }
  }

  /** One step of the pass: the first target is looked up in the window, and the rest of the pass goes on from there. */
  lemma SwapToBackStep(acc: seq<Id>, tgt: seq<Id>, start: nat, end: nat, hits: nat)
    requires start <= end <= |acc| && tgt != []
    ensures var w := SwapStep(Window(acc, start, end), tgt[0]);
      SwapToBack(acc, tgt, start, end, hits) == SwapToBack(w.acc, tgt[1..], w.start, w.end, if w.end < end then hits + 1 else hits)
  {
  }

  /** A window that has inverted makes the rest of the pass undefined, however many targets remain. */
  lemma SwapToBackInverted(acc: seq<Id>, tgt: seq<Id>, start: nat, end: nat, hits: nat)
    requires end < start && end <= |acc|
    ensures SwapToBack(acc, tgt, start, end, hits) == if tgt == [] then Pass(acc, end, hits) else InvalidRange
  {
  }

  /**
   * When lower_bound's answer in an ascending sequence is not x, x does not
   * occur in it at all.
   */
  lemma MissAbsent(s: seq<Id>, found: nat, x: Id)
    requires SortedBy(s, Identity) && found <= |s|
    requires forall p :: 0 <= p < found ==> s[p] < x
    requires forall p :: found <= p < |s| ==> s[p] >= x
    requires found < |s| ==> s[found] != x
    ensures x !in s
  {
    forall j | 0 <= j < |s|
      ensures s[j] != x
    {
      if found <= j {
        assert s[found] <= s[j];
      }
    }
  }

  /** Taking one more target away: the targets so far and then t, or nothing more when t is absent. */
  lemma MinusStep(a: multiset<Id>, done: seq<Id>, t: Id)
    ensures a - multiset(done + [t]) == (a - multiset(done)) - multiset{t}
  {
    assert multiset(done + [t]) == multiset(done) + multiset{t};
  }

  /** Every element before position n is less than y. */
  ghost predicate AllBelow(s: seq<Id>, n: nat, y: Id)
  {
    n <= |s| && forall p :: 0 <= p < n ==> s[p] < y
  }

  /** A prefix below x stays below any y >= x in a sequence that keeps that prefix. */
  lemma AllBelowKept(s: seq<Id>, t: seq<Id>, n: nat, x: Id, y: Id)
    requires AllBelow(s, n, x) && x <= y
    requires n <= |t| && t[..n] == s[..n]
    ensures AllBelow(t, n, y)
  {
    forall p | 0 <= p < n
      ensures t[p] < y
    {
      assert t[p] == t[..n][p] == s[..n][p] == s[p];
    }
  }

  /**
   * One round of RemoveAccessories' loop on the window [start, end), computed
   * with lower_bound: what SwapStep describes. The new window still agrees
   * with orig, the ascending vector the pass started from.
   */
  method PassStep(acc: seq<Id>, ghost orig: seq<Id>, x: Id, start: nat, end: nat)
    returns (acc': seq<Id>, start': nat, end': nat)
    requires start <= end <= |acc| == |orig| && SortedBy(orig, Identity)
    requires forall p :: start <= p < end ==> acc[p] == orig[p]
    ensures Window(acc', start', end') == SwapStep(Window(acc, start, end), x)
    ensures forall p :: start' <= p < end' ==> acc'[p] == orig[p]
  {
    SortedWindowPartitioned(acc, orig, start, end, x);
    var found := LowerBound(acc, start, end, x, Identity);
    FirstNotLessIsLowerBound(acc, start, end, x, found);
    if found != end {
      var last := |acc| - 1;
      acc' := acc[found := acc[last]][last := acc[found]];
      start', end' := found + 1, end - 1;
    } else {
      acc', start', end' := acc, start, end;
    }
  }

  /**
   * One round of the corrected loop: lower_bound for x from start, and an
   * erase only when the hit is x. Exactly one copy of x goes when there is
   * one; the elements before the returned position are untouched and below x.
   */
  method EraseFirst(s: seq<Id>, start: nat, x: Id) returns (r: seq<Id>, found: nat)
    requires SortedBy(s, Identity) && AllBelow(s, start, x)
    ensures SortedBy(r, Identity)
    ensures multiset(r) == multiset(s) - multiset{x}
    ensures start <= found <= |r| && found <= |s| && r[..found] == s[..found] && AllBelow(s, found, x)
  {
    SortedIsPartitioned(s, start, |s|, x, Identity);
    found := LowerBound(s, start, |s|, x, Identity);
    if found != |s| && s[found] == x {
      EraseAtMultiset(s, found);
      EraseAtSorted(s, found);
      r := s[..found] + s[found + 1..];
    } else {
      MissAbsent(s, found, x);
      r := s;
    }
  }

  /**
   * The corrected loop over the ascending targets: each one is erased once
   * if present, and the next search starts where the last one stopped.
   */
  method EraseAll(s: seq<Id>, targets: seq<Id>) returns (r: seq<Id>)
    requires SortedBy(s, Identity) && SortedBy(targets, Identity)
    ensures SortedBy(r, Identity)
    ensures multiset(r) == multiset(s) - multiset(targets)
  {
    r := s;
    var newStart: nat := 0;
    for i := 0 to |targets|
      invariant SortedBy(r, Identity)
      invariant newStart <= |r|
      invariant multiset(r) == multiset(s) - multiset(targets[..i])
      invariant i < |targets| ==> AllBelow(r, newStart, targets[i])
    {
      var x := targets[i];
      ghost var before := r;
      r, newStart := EraseFirst(r, newStart, x);
      MinusStep(multiset(s), targets[..i], x);
      assert targets[..i + 1] == targets[..i] + [x];
      if i + 1 < |targets| {
        AllBelowKept(before, r, newStart, x, targets[i + 1]);
      }
    }
    assert targets[..|targets|] == targets;
  }

  /**
   * RemoveAccessories' loop as written, over the ascending targets on the
   * ascending vector s: the swap-to-back pass, then the vector cut at the
   * window's end. defined is false when a target would be looked up in an
   * inverted window; r is then whatever the pass had reached.
   */
  method SwapPass(s: seq<Id>, targets: seq<Id>) returns (defined: bool, r: seq<Id>)
    requires SortedBy(s, Identity)
    ensures defined <==> SwapToBack(s, targets, 0, |s|, 0).Pass?
    ensures defined ==> var pass := SwapToBack(s, targets, 0, |s|, 0); r == pass.acc[..pass.end]
  {
    var acc := s;
    var newStart: nat := 0;
    var newEnd: nat := |acc|;
    ghost var hits: nat := 0;
    defined := true;
    var i := 0;
    while i < |targets|
      invariant 0 <= i <= |targets|
      invariant newEnd <= |acc| == |s|
      invariant forall p :: newStart <= p < newEnd ==> acc[p] == s[p]
      invariant SwapToBack(s, targets, 0, |s|, 0) == SwapToBack(acc, targets[i..], newStart, newEnd, hits)
    {
      if newStart > newEnd {
        SwapToBackInverted(acc, targets[i..], newStart, newEnd, hits);
        defined := false;
        break;
      }
      assert targets[i..][1..] == targets[i + 1..];
      SwapToBackStep(acc, targets[i..], newStart, newEnd, hits);
      ghost var oldEnd := newEnd;
      acc, newStart, newEnd := PassStep(acc, s, targets[i], newStart, newEnd);
      if newEnd < oldEnd {
        hits := hits + 1;
      }
      i := i + 1;
    }
    if defined {
      assert targets[i..] == [];
      r := acc[..newEnd];
    } else {
      r := acc;
    }
  }

  // ---------------------------------------------------------------------------
  // Inputs on which the code as written departs from its evident intent

  /** RemoveAccessory(3) on the vector [5]: 3 is absent, yet lower_bound's hit 5 is what goes. */
  lemma RemoveAbsentErasesOther()
    ensures HitMultiset(LeastNotLess([5], 3)) == multiset{5}
  {
    assert [5][1..] == [];
  }

  /**
   * RemoveAccessories with targets [1, 2] on [1, 2, 3, 4, 5]: the vector is
   * cut to [5, 1, 3], which still holds the target 1, has lost 4, which was
   * not a target, and is not in ascending order although the flag says it is.
   */
  lemma SwapToBackCounterexample()
    ensures SwapToBack([1, 2, 3, 4, 5], [1, 2], 0, 5, 0) == Pass([5, 1, 3, 4, 2], 3, 2)
    ensures 1 in [5, 1, 3] && 4 !in [5, 1, 3] && !SortedBy([5, 1, 3], Identity)
  {
    FirstSwap();
    SecondSwap();
    SwapToBackStep([1, 2, 3, 4, 5], [1, 2], 0, 5, 0);
    SwapToBackStep([5, 2, 3, 4, 1], [2], 1, 4, 1);
    assert [1, 2][1..] == [2] && [2][1..] == [];
    CutIsWrong();
  }

  /**
   * The cut [5, 1, 3] holds the target 1, lacks the non-target 4, and is out
   * of order. A solver aid for SwapToBackCounterexample and
   * DecoratorTests.SwapToBackScenario: facts about that literal only.
   */
  lemma CutIsWrong()
    ensures 1 in [5, 1, 3] && 4 !in [5, 1, 3] && !SortedBy([5, 1, 3], Identity)
  {
    var cut: seq<Id> := [5, 1, 3];
    assert Identity(cut[0]) > Identity(cut[1]);
    assert cut[1] == 1;
  }

  /** The first round of the counterexample: 1 is hit at position 0 and swapped with the back. */
  lemma FirstSwap()
    ensures SwapStep(Window([1, 2, 3, 4, 5], 0, 5), 1) == Window([5, 2, 3, 4, 1], 1, 4)
  {
    var a: seq<Id> := [1, 2, 3, 4, 5];
    assert FirstNotLess(a, 0, 5, 1) == 0;
    assert a[0 := a[4]][4 := a[0]] == [5, 2, 3, 4, 1];
  }

  /** The second round: 2 is hit at position 1 and swapped with the back, where 1 now is. */
  lemma SecondSwap()
    ensures SwapStep(Window([5, 2, 3, 4, 1], 1, 4), 2) == Window([5, 1, 3, 4, 2], 2, 3)
  {
    var b: seq<Id> := [5, 2, 3, 4, 1];
    assert FirstNotLess(b, 1, 4, 2) == 1;
    assert b[1 := b[4]][4 := b[1]] == [5, 1, 3, 4, 2];
  }

  /**
   * RemoveAccessories with targets [2, 3] on [1, 2]: the hit on 2 leaves
   * new_start one past new_end, and the lookup of 3 hands lower_bound an
   * inverted range.
   */
  lemma InvertedWindowCounterexample()
    ensures SwapToBack([1, 2], [2, 3], 0, 2, 0) == InvalidRange
  {
    var a: seq<Id> := [1, 2];
    assert FirstNotLess(a, 0, 2, 2) == 1;
    assert a[1 := a[1]][1 := a[1]] == a;
    assert [2, 3][1..] == [3];
  }

  /**
   * Removing every element of a sorted vector, in ascending order, as the
   * add/remove benchmark removes all its bullets: on [0, 1, 2, 3, 4] the
   * third hit inverts the window and the lookup of 3 is undefined.
   */
  lemma BulkRemovalInverts()
    ensures SwapToBack([0, 1, 2, 3, 4], [0, 1, 2, 3, 4], 0, 5, 0) == InvalidRange
  {
  }

  /** What the corrected pass leaves for targets [1, 2] on [1, 2, 3, 4, 5]: exactly [3, 4, 5]. */
  lemma CorrectedExample(r: seq<Id>)
    requires SortedBy(r, Identity)
    requires multiset(r) == multiset([1, 2, 3, 4, 5]) - multiset([1, 2])
    ensures r == [3, 4, 5]
  {
    ExampleMultiset();
    SortedIdsUnique(r, [3, 4, 5]);
  }

  /** Taking 1 and 2 out of 1..5 leaves 3, 4 and 5. */
  lemma ExampleMultiset()
    ensures multiset([1, 2, 3, 4, 5]) - multiset([1, 2]) == multiset([3, 4, 5])
  {
    assert [1, 2, 3, 4, 5] == [1, 2] + [3, 4, 5];
    assert multiset([1, 2, 3, 4, 5]) == multiset([1, 2]) + multiset([3, 4, 5]);
  }

  // ---------------------------------------------------------------------------
  // The rifle

  /** The Modern rifle's accessory vector and its `sorted` flag. */
  class Rifle {
    var accessories: seq<Id>
    var sorted: bool

    /** The flag never claims order the vector does not have. */
    ghost predicate Valid()
      reads this
    {
      sorted ==> SortedBy(accessories, Identity)
    }

    /** A rifle without accessories; the flag starts false. */
    constructor ()
      ensures Valid() && accessories == [] && !sorted
    {
      accessories := [];
      sorted := false;
    }

    /** AddAccessory: push_back, so acc goes to the BACK; the vector is no longer known to be sorted. */
    method AddAccessory(acc: Id)
      modifies this
      ensures Valid() && !sorted
      ensures accessories == old(accessories) + [acc]
    {
      accessories := accessories + [acc];
      sorted := false;
    }

    /**
     * Sorts the vector when the flag says it may be out of order, then sets
     * the flag. A flag that is already set is trusted: the vector is left as
     * it is, sorted or not.
     */
    method EnsureSorted()
      modifies this
      ensures sorted
      ensures multiset(accessories) == multiset(old(accessories))
      ensures old(sorted) ==> accessories == old(accessories)
      ensures !old(sorted) ==> accessories == SortedIds(old(accessories))
      ensures old(Valid()) ==> Valid() && accessories == SortedIds(old(accessories))
    {
      if !sorted {
        accessories := SortCopy(accessories, Identity);
        SortedIdsIs(old(accessories), accessories);
      }
      sorted := true;
      if old(Valid()) {
        SortedIdsIs(old(accessories), accessories);
      }
    }

    /**
     * RemoveAccessory as written: sorts if needed, then erases whatever
     * lower_bound lands on, without checking that it equals tgt. So the least
     * accessory not less than tgt goes, whether or not it is tgt; only when
     * every accessory is less than tgt does nothing go.
     */
    method RemoveAccessory(tgt: Id)
      requires Valid()
      modifies this
      ensures Valid() && sorted
      ensures multiset(accessories) == multiset(old(accessories)) - HitMultiset(LeastNotLess(old(accessories), tgt))
      ensures |accessories| == |old(accessories)| - (if LeastNotLess(old(accessories), tgt).Some? then 1 else 0)
    {
      EnsureSorted();
      SortedIsPartitioned(accessories, 0, |accessories|, tgt, Identity);
      var found := LowerBound(accessories, 0, |accessories|, tgt, Identity);
      LowerBoundIsLeastNotLess(accessories, found, tgt);
      LeastNotLessOfPermutation(accessories, old(accessories), tgt);
      if found != |accessories| {
        EraseAtMultiset(accessories, found);
        EraseAtSorted(accessories, found);
        accessories := accessories[..found] + accessories[found + 1..];
      }
    }

    /**
     * RemoveAccessory as its comment describes it: the lower_bound hit is
     * erased only when it is tgt, so exactly one copy of tgt goes, and
     * nothing changes when tgt is absent.
     */
    method RemoveAccessoryChecked(tgt: Id)
      requires Valid()
      modifies this
      ensures Valid() && sorted
      ensures multiset(accessories) == multiset(old(accessories)) - multiset{tgt}
    {
      EnsureSorted();
      SortedIsPartitioned(accessories, 0, |accessories|, tgt, Identity);
      var found := LowerBound(accessories, 0, |accessories|, tgt, Identity);
      if found != |accessories| && accessories[found] == tgt {
        EraseAtMultiset(accessories, found);
        EraseAtSorted(accessories, found);
        accessories := accessories[..found] + accessories[found + 1..];
      } else {
        MissAbsent(accessories, found, tgt);
      }
    }

    /**
     * RemoveAccessories as written: sorts the vector if needed and the targets
     * in place, then runs the swap-to-back pass and resizes the vector to the
     * window's end. The closing re-sort is guarded by `!sorted` after
     * `sorted` was set, so it never runs. defined is false when the pass
     * would hand lower_bound an inverted window.
     */
    method RemoveAccessories(tgt: array<Id>) returns (defined: bool)
      requires Valid()
      modifies this, tgt
      ensures sorted
      ensures tgt[..] == SortedIds(old(tgt[..]))
      ensures defined <==> SwapToBack(SortedIds(old(accessories)), tgt[..], 0, |old(accessories)|, 0).Pass?
      ensures defined ==>
        var pass := SwapToBack(SortedIds(old(accessories)), tgt[..], 0, |old(accessories)|, 0);
        accessories == pass.acc[..pass.end] && |accessories| == |old(accessories)| - pass.hits
    {
      EnsureSorted();
      Sort(tgt, tgt.Length, Identity);
      assert tgt[..tgt.Length] == tgt[..] && old(tgt[..tgt.Length]) == old(tgt[..]);
      SortedIdsIs(old(tgt[..]), tgt[..]);
      defined, accessories := SwapPass(accessories, tgt[..]);
    }

    /**
     * RemoveAccessories as evidently intended: with the targets sorted, each
     * lower_bound hit is erased only when it equals its target, in place and
     * in order, and the next search starts where the erased element was. One
     * copy of each target goes, and the vector stays sorted.
     */
    method RemoveAccessoriesCorrected(tgt: array<Id>)
      requires Valid()
      modifies this, tgt
      ensures Valid() && sorted
      ensures tgt[..] == SortedIds(old(tgt[..]))
      ensures multiset(accessories) == multiset(old(accessories)) - multiset(old(tgt[..]))
    {
      EnsureSorted();
      Sort(tgt, tgt.Length, Identity);
      assert tgt[..tgt.Length] == tgt[..] && old(tgt[..tgt.Length]) == old(tgt[..]);
      SortedIdsIs(old(tgt[..]), tgt[..]);
      accessories := EraseAll(accessories, tgt[..]);
    }
  }
}

=== FILE: single_linked_list.dfy ===
/**
 * The intrusive accessory list of the SingleLinkedList rifle in
 * src/Decorator.cpp: every accessory (a WeaponDecorator) carries the `next`
 * link itself, and the rifle holds a pointer to the first one. Only the links
 * are modelled; the stats each accessory applies are not.
 */
module SingleLinkedList {
  import opened Algorithms

  /** A WeaponDecorator, reduced to its intrusive link. */
  class Decorator {
    var next: Decorator?

    constructor ()
      ensures next == null
    {
      next := null;
    }
  }

  /**
   * Following `next` from head visits exactly nodes, in order, and ends at
   * null; no node is visited twice.
   */
  ghost predicate Chain(head: Decorator?, nodes: seq<Decorator>)
    reads nodes
  {
    (if nodes == [] then head == null else head == nodes[0])
    && (forall i :: 0 <= i < |nodes| - 1 ==> nodes[i].next == nodes[i + 1])
    && (nodes != [] ==> nodes[|nodes| - 1].next == null)
    && Distinct(nodes)
  }

  /** The node list with the first occurrence of tgt taken out, or unchanged when tgt is not on it. */
  function Unlinked(nodes: seq<Decorator>, tgt: Decorator?): (r: seq<Decorator>)
  {
    if nodes == [] then []
    else if nodes[0] == tgt then nodes[1..]
    else [nodes[0]] + Unlinked(nodes[1..], tgt)
  }

  /** Unlinking shortens the list by one exactly when tgt was on it. */
  lemma {:induction false} UnlinkedLength(nodes: seq<Decorator>, tgt: Decorator?)
    ensures |Unlinked(nodes, tgt)| == if tgt in nodes then |nodes| - 1 else |nodes|
  {
    if nodes != [] && nodes[0] != tgt {
      UnlinkedLength(nodes[1..], tgt);
      assert tgt in nodes <==> tgt in nodes[1..];
    }
  }

  /** On a list without repeats, unlinking removes tgt and only tgt. */
  lemma {:induction false} UnlinkedMembers(nodes: seq<Decorator>, tgt: Decorator?, x: Decorator)
    requires Distinct(nodes)
    ensures x in Unlinked(nodes, tgt) <==> x in nodes && x != tgt
  {
    if nodes != [] {
      if nodes[0] == tgt {
        assert x in nodes[1..] ==> x != nodes[0] by {
          if x in nodes[1..] {
            var j :| 0 <= j < |nodes[1..]| && nodes[1..][j] == x;
            assert nodes[j + 1] == x;
          }
        }
        assert x in nodes <==> x == nodes[0] || x in nodes[1..];
      } else {
        UnlinkedMembers(nodes[1..], tgt, x);
        assert x in nodes <==> x == nodes[0] || x in nodes[1..];
      }
    }
  }

  /** Unlinking adds no node. */
  lemma {:induction false} UnlinkedWithin(nodes: seq<Decorator>, tgt: Decorator?)
    ensures forall i :: 0 <= i < |Unlinked(nodes, tgt)| ==> Unlinked(nodes, tgt)[i] in nodes
  {
    if nodes != [] && nodes[0] != tgt {
      UnlinkedWithin(nodes[1..], tgt);
      var r := Unlinked(nodes, tgt);
      forall i | 0 < i < |r|
        ensures r[i] in nodes
      {
        assert r[i] == Unlinked(nodes[1..], tgt)[i - 1];
      }
    }
  }

  /** Unlinking the node at position i joins the nodes before it to the nodes after it. */
  lemma {:induction false} UnlinkedAt(nodes: seq<Decorator>, i: nat)
    requires i < |nodes| && Distinct(nodes)
    ensures Unlinked(nodes, nodes[i]) == nodes[..i] + nodes[i + 1..]
  {
    if i > 0 {
      assert nodes[0] != nodes[i];
      UnlinkedAt(nodes[1..], i - 1);
      assert nodes[1..][..i - 1] == nodes[1..i];
      assert nodes[1..][i..] == nodes[i + 1..];
    }
  }

  /** Taking one node out of a list without repeats leaves a list without repeats. */
  lemma DistinctWithout(nodes: seq<Decorator>, i: nat)
    requires i < |nodes| && Distinct(nodes)
    ensures Distinct(nodes[..i] + nodes[i + 1..])
  {
    var r := nodes[..i] + nodes[i + 1..];
    forall p, q | 0 <= p < q < |r|
      ensures r[p] != r[q]
    {
      var p' := if p < i then p else p + 1;
      var q' := if q < i then q else q + 1;
      assert r[p] == nodes[p'] && r[q] == nodes[q'];
    }
  }

  /** The SingleLinkedList rifle: the head of its accessory list. */
  class Rifle {
    var accessories: Decorator?
    ghost var Nodes: seq<Decorator>

    ghost predicate Valid()
      reads this, Nodes
    {
      Chain(accessories, Nodes)
    }

    /** A rifle without accessories. */
    constructor ()
      ensures Valid() && Nodes == []
    {
      accessories := null;
      Nodes := [];
    }

    /**
     * AddAccessory: acc becomes the head and the previous list follows it
     * unchanged. acc must not already be on the list: linking it in again
     * would close a cycle.
     */
    method AddAccessory(acc: Decorator)
      requires Valid() && acc !in Nodes
      modifies this, acc
      ensures Valid()
      ensures Nodes == [acc] + old(Nodes)
    {
      acc.next := accessories;
      accessories := acc;
      Nodes := [acc] + Nodes;
    }

    /**
     * RemoveAccessory: walks the list with a trailing pointer (here prev, with
     * null standing for the rifle's own head field) and unlinks the first node
     * identical to tgt. A tgt that is not on the list changes nothing. The
     * unlinked node keeps its own next link.
     */
    method RemoveAccessory(tgt: Decorator?)
      requires Valid()
      modifies this, Nodes
      ensures Valid()
      ensures Nodes == Unlinked(old(Nodes), tgt)
      ensures tgt !in old(Nodes) ==> accessories == old(accessories)
      ensures tgt != null ==> tgt.next == old(tgt.next)
    {
      var prev: Decorator? := null;
      var current := accessories;
      ghost var i := 0;
      while current != null
        invariant Valid() && Nodes == old(Nodes) && accessories == old(accessories)
        invariant forall n :: n in Nodes ==> n.next == old(n.next)
        invariant 0 <= i <= |Nodes|
        invariant current == if i < |Nodes| then Nodes[i] else null
        invariant prev == if i == 0 then null else Nodes[i - 1]
        invariant tgt !in Nodes[..i]
        decreases |Nodes| - i
      {
        if current == tgt {
          UnlinkedAt(Nodes, i);
          assert Unlinked(Nodes, tgt) == Nodes[..i] + Nodes[i + 1..];
          DistinctWithout(Nodes, i);
          if prev == null {
            accessories := current.next;
          } else {
            prev.next := current.next;
          }
          Nodes := Nodes[..i] + Nodes[i + 1..];
          return;
        }
        assert Nodes[..i + 1] == Nodes[..i] + [Nodes[i]];
        prev := current;
        current := current.next;
        i := i + 1;
      }
      assert Nodes[..i] == Nodes;
      UnlinkedAbsent(Nodes, tgt);
    }
  }

  /** Unlinking a node that is not on the list leaves the list as it is. */
  lemma {:induction false} UnlinkedAbsent(nodes: seq<Decorator>, tgt: Decorator?)
    requires tgt !in nodes
    ensures Unlinked(nodes, tgt) == nodes
  {
    if nodes != [] {
      assert tgt !in nodes[1..];
      UnlinkedAbsent(nodes[1..], tgt);
    }
  }

  /** count: the number of nodes reached by following next from head until null. */
  method Count(head: Decorator?, ghost nodes: seq<Decorator>) returns (n: int)
    requires Chain(head, nodes)
    ensures n == |nodes|
  {
    n := 0;
    var current := head;
    while current != null
      invariant 0 <= n <= |nodes|
      invariant current == if n < |nodes| then nodes[n] else null
      decreases |nodes| - n
    {
      n := n + 1;
      current := current.next;
    }
  }
}

=== FILE: sorted_vector.dfy ===
/**
 * The sorted-vector batch mutation engine of timings.cpp: a std::vector<Elem>
 * kept in ascending key order, the key search Contains, the one-pass compaction
 * BatchErase, the windowed search BatchDelete, the two re-sorting insertions
 * BatchInsert and BatchInsertMagic, and the test-data builders CreateVector and
 * RandomSelection (their std::random_shuffle output is a parameter).
 */
module SortedVector {
  import opened Algorithms

  /**
   * A key and its payload. Every comparison the source defines (operator< on
   * two elements, operator< and operator== against an int) looks at the key
   * only; the payload, a std::string, is carried along and never inspected.
   */
  datatype Elem = Elem(k: int, v: string)

  /** The sort key of an element. */
  function Key(e: Elem): (k: int)
  {
    e.k
  }

  // ---------------------------------------------------------------------------
  // Key search

  /**
   * std::find with Elem == int: the first position whose key is x, or |s| when
   * no element has that key.
   */
  function Find(s: seq<Elem>, x: int): (i: nat)
    ensures i <= |s|
    ensures i < |s| ==> s[i].k == x
    ensures forall j :: 0 <= j < i ==> s[j].k != x
  {
    if s == [] then 0
    else if s[0].k == x then 0
    else 1 + Find(s[1..], x)
  }

  /** Contains: some element of s has key x (a linear search, not lower_bound). */
  function Contains(s: seq<Elem>, x: int): (b: bool)
    ensures b <==> exists i :: 0 <= i < |s| && s[i].k == x
  {
    Find(s, x) < |s|
  }

  // ---------------------------------------------------------------------------
  // Removing positions: the specification of BatchErase

  /**
   * s without the elements at the positions in drop; the survivors keep their
   * relative order.
   */
  ghost function Without<T>(s: seq<T>, drop: set<int>): (r: seq<T>)
    decreases |s|
  {
    if s == [] then []
    else Without(s[..|s| - 1], drop) + (if |s| - 1 in drop then [] else [s[|s| - 1]])
  }

  /** Extending the input by one position extends the result by that element, unless it is dropped. */
  lemma WithoutStep<T>(s: seq<T>, m: nat, drop: set<int>)
    requires m < |s|
    ensures Without(s[..m + 1], drop) == Without(s[..m], drop) + (if m in drop then [] else [s[m]])
  {
    assert s[..m + 1][..m] == s[..m];
  }

  /** Positions before the first dropped one come through unchanged. */
  lemma {:induction false} WithoutUntouched<T>(s: seq<T>, m: nat, drop: set<int>)
    requires m <= |s|
    requires forall p :: p in drop ==> p >= m
    ensures Without(s[..m], drop) == s[..m]
  {
    if m > 0 {
      WithoutUntouched(s, m - 1, drop);
      WithoutStep(s, m - 1, drop);
      assert s[..m] == s[..m - 1] + [s[m - 1]];
    }
  }

  /** Positions before the first dropped one keep their places in the result. */
  lemma {:induction false} WithoutKeepsPrefix<T>(s: seq<T>, m: nat, drop: set<int>)
    requires m <= |s|
    requires forall p :: p in drop ==> p >= m
    ensures m <= |Without(s, drop)| && Without(s, drop)[..m] == s[..m]
    decreases |s|
  {
    if |s| == m {
      WithoutUntouched(s, m, drop);
      assert s[..m] == s;
    } else {
      var last := |s| - 1;
      WithoutKeepsPrefix(s[..last], m, drop);
      assert s[..last][..m] == s[..m];
    }
  }

  /** Dropping only the last position leaves the rest: the resize is all that happens. */
  lemma WithoutOnlyLast<T>(s: seq<T>)
    requires s != []
    ensures Without(s, {|s| - 1}) == s[..|s| - 1]
  {
    WithoutUntouched(s, |s| - 1, {|s| - 1});
  }

  /** The result is shorter by exactly the number of dropped positions that exist. */
  lemma {:induction false} WithoutLength<T>(s: seq<T>, drop: set<int>)
    requires forall p :: p in drop ==> 0 <= p < |s|
    ensures |Without(s, drop)| == |s| - |drop|
  {
    if s != [] {
      var last := |s| - 1;
      var rest := drop - {last};
      assert Without(s, drop) == Without(s[..last], drop) + (if last in drop then [] else [s[last]]);
      assert forall p :: p in rest ==> 0 <= p < last;
      WithoutLength(s[..last], rest);
      assert Without(s[..last], rest) == Without(s[..last], drop) by {
        WithoutIgnoresOutside(s[..last], rest, drop);
      }
      assert forall p :: p in rest ==> 0 <= p < last;
      if last in drop {
        assert drop == rest + {last};
        assert |drop| == |rest| + 1;
      } else {
        assert rest == drop;
      }
    } else {
      assert forall p :: p !in drop;
      assert drop == {};
    }
  }

  /** Only the dropped positions inside the sequence matter. */
  lemma {:induction false} WithoutIgnoresOutside<T>(s: seq<T>, d1: set<int>, d2: set<int>)
    requires forall p :: 0 <= p < |s| ==> (p in d1 <==> p in d2)
    ensures Without(s, d1) == Without(s, d2)
  {
    if s != [] {
      WithoutIgnoresOutside(s[..|s| - 1], d1, d2);
    }
  }

  /** The survivors are exactly the elements at positions that are not dropped. */
  lemma {:induction false} WithoutMembers<T>(s: seq<T>, drop: set<int>, x: T)
    ensures x in Without(s, drop) <==> exists i :: 0 <= i < |s| && i !in drop && s[i] == x
  {
    if s != [] {
      var last := |s| - 1;
      WithoutMembers(s[..last], drop, x);
      if x in Without(s, drop) && x !in Without(s[..last], drop) {
        assert s[last] == x && last !in drop;
      }
      if exists i :: 0 <= i < |s| && i !in drop && s[i] == x {
        var i :| 0 <= i < |s| && i !in drop && s[i] == x;
        if i < last {
          assert s[..last][i] == x;
        }
      }
    }
  }

  /** Removing positions from a sorted sequence leaves it sorted. */
  lemma {:induction false} WithoutSorted<T>(s: seq<T>, drop: set<int>, key: T -> int)
    requires SortedBy(s, key)
    ensures SortedBy(Without(s, drop), key)
  {
    if s != [] {
      var last := |s| - 1;
      var r := Without(s[..last], drop);
      WithoutSorted(s[..last], drop, key);
      if last !in drop {
        forall p | 0 <= p < |r|
          ensures key(r[p]) <= key(s[last])
        {
          WithoutMembers(s[..last], drop, r[p]);
        }
      }
    }
  }

  // ---------------------------------------------------------------------------
  // Removing keys: the specification of BatchDelete

  /** The positions of the first element with each of the given keys. */
  ghost function FirstOccurrences(s: seq<Elem>, keys: set<int>): (found: set<int>)
  {
    set i | 0 <= i < |s| && s[i].k in keys && Find(s, s[i].k) == i
  }

  /**
   * In a vector whose keys are distinct, removing the first occurrence of each
   * selected key leaves exactly the keys that were there and were not selected.
   */
  lemma DeletedKeysGone(s: seq<Elem>, keys: set<int>, x: int)
    requires StrictlySortedBy(s, Key)
    ensures Contains(Without(s, FirstOccurrences(s, keys)), x) <==> Contains(s, x) && x !in keys
  {
    var drop := FirstOccurrences(s, keys);
    var r := Without(s, drop);
    if Contains(r, x) {
      var j :| 0 <= j < |r| && r[j].k == x;
      WithoutMembers(s, drop, r[j]);
      var i :| 0 <= i < |s| && i !in drop && s[i] == r[j];
      assert Find(s, x) == i;
    }
    if Contains(s, x) && x !in keys {
      var i :| 0 <= i < |s| && s[i].k == x;
      assert i !in drop;
      WithoutMembers(s, drop, s[i]);
      var j :| 0 <= j < |r| && r[j] == s[i];
    }
  }

  // ---------------------------------------------------------------------------
  // The vector

  /**
   * A std::vector<Elem>: a buffer whose first `size` slots hold the elements.
   * resize to a smaller size only lowers `size`; growing past the buffer
   * allocates a larger one.
   */
  class Vector {
    var data: array<Elem>
    var size: nat

    ghost predicate Valid()
      reads this
    {
      size <= data.Length
    }

    /** The elements, front to back. */
    ghost function Elems(): seq<Elem>
      reads this, data
      requires Valid()
    {
      data[..size]
    }

    /** An empty vector after reserve(capacity). */
    constructor Reserve(capacity: nat)
      ensures Valid() && fresh(data)
      ensures Elems() == [] && data.Length == capacity
    {
      data := new Elem[capacity];
      size := 0;
    }

    /** push_back / emplace_back: e becomes the last element. */
    method PushBack(e: Elem)
      requires Valid()
      modifies this, data
      ensures Valid()
      ensures Elems() == old(Elems()) + [e]
      ensures data == old(data) || fresh(data)
      ensures old(size) < old(data.Length) ==> data == old(data)
    {
      if size == data.Length {
        var grown := new Elem[2 * size + 1];
        forall i | 0 <= i < size {
          grown[i] := data[i];
        }
        data := grown;
      }
      data[size] := e;
      size := size + 1;
    }

    /** insert(end(), s.begin(), s.end()): the elements of s follow the old ones, in order. */
    method Append(s: seq<Elem>)
      requires Valid()
      modifies this, data
      ensures Valid()
      ensures Elems() == old(Elems()) + s
      ensures data == old(data) || fresh(data)
    {
      for i := 0 to |s|
        invariant Valid()
        invariant Elems() == old(Elems()) + s[..i]
        invariant data == old(data) || fresh(data)
      {
        PushBack(s[i]);
        assert s[..i + 1] == s[..i] + [s[i]];
      }
      assert s[..|s|] == s;
    }
  }

  // ---------------------------------------------------------------------------
  // The batch operations

  /** The positions strictly ascend. */
  ghost predicate StrictlyIncreasing(ps: seq<nat>)
  {
    forall p, q :: 0 <= p < q < |ps| ==> ps[p] < ps[q]
  }

  /**
   * BatchErase: removes the elements at the pre-found positions `found` in one
   * left-to-right pass. copyFrom reads, copyTo writes, and nextToSkip points at
   * the next position to leave out; finally the vector is resized by |found|.
   * The positions must be non-empty, strictly increasing and inside the vector:
   * a repeated position would be skipped once but subtracted twice.
   */
  method BatchErase(v: Vector, found: seq<nat>)
    requires v.Valid()
    requires |found| > 0
    requires StrictlyIncreasing(found)
    requires forall j :: 0 <= j < |found| ==> found[j] < v.size
    modifies v.data, v`size
    ensures v.Valid()
    ensures v.Elems() == Without(old(v.Elems()), set p | p in found)
    ensures v.size == old(v.size) - |found|
  {
    ghost var s := v.Elems();
    ghost var drop := set p | p in found;
    var n := v.size;
    var a := v.data;
    var copyFrom: nat := found[0] + 1;
    var copyTo: nat := found[0];
    var nextToSkip: nat := 1;
    CompactedStart(a[..], s, drop, found[0]);
    while true
      invariant v.size == n && a == v.data
      invariant 1 <= nextToSkip <= |found|
      invariant copyTo + nextToSkip == copyFrom
      invariant found[nextToSkip - 1] < copyFrom
      invariant nextToSkip < |found| ==> found[nextToSkip] >= copyFrom
      invariant Compacted(a[..], s, drop, copyTo, copyFrom)
      decreases n - copyFrom
    {
      nextToSkip, copyFrom := SkipFound(found, nextToSkip, copyFrom, a[..], s, drop, copyTo);
      if copyFrom != n {
        SkippedAll(found, nextToSkip, copyFrom);
        CompactedCopy(a[..], s, drop, copyTo, copyFrom);
        a[copyTo] := a[copyFrom];
        copyTo, copyFrom := copyTo + 1, copyFrom + 1;
      } else {
        break;
      }
    }
    assert nextToSkip == |found|;
    EraseFinished(a[..], s, drop, copyTo);
    v.size := n - |found|;
  }

  /** At the end of the pass the first copyTo slots are the result. */
  lemma EraseFinished(cur: seq<Elem>, s: seq<Elem>, drop: set<int>, copyTo: nat)
    requires Compacted(cur, s, drop, copyTo, |s|)
    ensures cur[..copyTo] == Without(s, drop)
  {
    assert s[..|s|] == s;
  }

  /** BatchErase leaves the elements before the first erased position where they were. */
  lemma EraseKeepsPrefix(s: seq<Elem>, found: seq<nat>, drop: set<int>)
    requires |found| > 0 && StrictlyIncreasing(found) && drop == (set p | p in found)
    requires found[0] <= |s|
    ensures found[0] <= |Without(s, drop)|
    ensures forall i :: 0 <= i < found[0] ==> Without(s, drop)[i] == s[i]
  {
    forall p | p in drop
      ensures p >= found[0]
    {
      var j :| 0 <= j < |found| && found[j] == p;
      if j > 0 {
        assert found[0] < found[j];
      }
    }
    WithoutKeepsPrefix(s, found[0], drop);
    assert forall i :: 0 <= i < found[0] ==> Without(s, drop)[..found[0]][i] == s[..found[0]][i];
  }

  /**
   * The inner loop of BatchErase: moves copyFrom past the run of positions of
   * found that starts at nextToSkip, advancing nextToSkip with it.
   */
  method SkipFound(found: seq<nat>, nextToSkip: nat, copyFrom: nat,
                   ghost cur: seq<Elem>, ghost s: seq<Elem>, ghost drop: set<int>, ghost copyTo: nat)
    returns (k: nat, c: nat)
    requires StrictlyIncreasing(found) && drop == (set p | p in found)
    requires 1 <= nextToSkip <= |found| && found[nextToSkip - 1] < copyFrom
    requires nextToSkip < |found| ==> found[nextToSkip] >= copyFrom
    requires forall j :: 0 <= j < |found| ==> found[j] < |s|
    requires Compacted(cur, s, drop, copyTo, copyFrom)
    ensures nextToSkip <= k <= |found| && c == copyFrom + (k - nextToSkip)
    ensures found[k - 1] < c
    ensures k < |found| ==> found[k] > c
    ensures Compacted(cur, s, drop, copyTo, c)
  {
    k, c := nextToSkip, copyFrom;
    while k < |found| && found[k] == c
      invariant nextToSkip <= k <= |found| && c == copyFrom + (k - nextToSkip)
      invariant found[k - 1] < c
      invariant k < |found| ==> found[k] >= c
      invariant Compacted(cur, s, drop, copyTo, c)
    {
      CompactedSkip(cur, s, drop, copyTo, c);
      k, c := k + 1, c + 1;
    }
  }

  /**
   * The state of BatchErase's pass over cur, a snapshot of the buffer: the
   * first copyTo slots hold the survivors of s[..copyFrom], and the slots from
   * copyFrom to the end of s are still untouched.
   */
  ghost predicate Compacted(cur: seq<Elem>, s: seq<Elem>, drop: set<int>, copyTo: nat, copyFrom: nat)
  {
    copyTo <= copyFrom <= |s| <= |cur|
    && cur[..copyTo] == Without(s[..copyFrom], drop)
    && cur[copyFrom..|s|] == s[copyFrom..]
  }

  /** Before the first dropped position the buffer already holds the survivors. */
  lemma CompactedStart(cur: seq<Elem>, s: seq<Elem>, drop: set<int>, first: nat)
    requires first < |s| <= |cur| && cur[..|s|] == s
    requires first in drop && forall p :: p in drop ==> p >= first
    ensures Compacted(cur, s, drop, first, first + 1)
  {
    WithoutUntouched(s, first, drop);
    WithoutStep(s, first, drop);
    assert cur[..first] == s[..first];
  }

  /** Passing over a dropped position keeps the pass's state. */
  lemma CompactedSkip(cur: seq<Elem>, s: seq<Elem>, drop: set<int>, copyTo: nat, copyFrom: nat)
    requires Compacted(cur, s, drop, copyTo, copyFrom)
    requires copyFrom < |s| && copyFrom in drop
    ensures Compacted(cur, s, drop, copyTo, copyFrom + 1)
  {
    WithoutStep(s, copyFrom, drop);
  }

  /** Copying a kept element down to copyTo advances both positions. */
  lemma CompactedCopy(cur: seq<Elem>, s: seq<Elem>, drop: set<int>, copyTo: nat, copyFrom: nat)
    requires Compacted(cur, s, drop, copyTo, copyFrom)
    requires copyFrom < |s| && copyFrom !in drop
    ensures Compacted(cur[copyTo := cur[copyFrom]], s, drop, copyTo + 1, copyFrom + 1)
  {
    WithoutStep(s, copyFrom, drop);
    var next := cur[copyTo := cur[copyFrom]];
    assert cur[copyFrom] == s[copyFrom] by {
      assert cur[copyFrom..|s|][0] == s[copyFrom..][0];
    }
    assert next[..copyTo + 1] == cur[..copyTo] + [s[copyFrom]];
    assert next[copyFrom + 1..|s|] == cur[copyFrom..|s|][1..];
  }

  /**
   * Between the last skipped position and the next one to skip, no position
   * of found occurs.
   */
  lemma SkippedAll(found: seq<nat>, k: nat, c: int)
    requires StrictlyIncreasing(found)
    requires 1 <= k <= |found| && found[k - 1] < c
    requires k < |found| ==> found[k] > c
    ensures c !in (set p | p in found)
  {
    forall j | 0 <= j < |found|
      ensures found[j] != c
    {
      if j < k - 1 {
        assert found[j] < found[k - 1];
      } else if k < j {
        assert found[k] < found[j];
      }
    }
  }

  /**
   * BatchDelete: removes one element for each selected key. The selection (a
   * copy) is sorted; each key is looked up with lower_bound in a window that
   * starts just after the previous hit; the hits go to BatchErase.
   * The caller guarantees a non-empty selection of distinct keys, each present
   * in the sorted vector.
   */
  method BatchDelete(v: Vector, selection: seq<int>)
    requires v.Valid()
    requires SortedBy(v.Elems(), Key)
    requires |selection| > 0
    requires Distinct(selection)
    requires forall x :: x in selection ==> Contains(v.Elems(), x)
    modifies v.data, v`size
    ensures v.Valid()
    ensures v.Elems() == Without(old(v.Elems()), FirstOccurrences(old(v.Elems()), set x | x in selection))
    ensures |v.Elems()| == |old(v.Elems())| - |selection|
    ensures SortedBy(v.Elems(), Key)
  {
    ghost var s := v.Elems();
    var sel := SortCopy(selection, Identity);
    PermutationKeepsDistinct(sel, selection);
    forall j | 0 <= j < |sel|
      ensures Contains(s, sel[j])
    {
      assert sel[j] in multiset(selection);
    }
    var foundList := FindSorted(v.data[..v.size], sel);
    FoundAreFirstOccurrences(s, sel, selection, foundList);
    BatchErase(v, foundList);
    WithoutSorted(s, FirstOccurrences(s, set x | x in selection), Key);
  }

  /**
   * The search loop of BatchDelete: each key of the ascending selection is
   * looked up with lower_bound from just after the previous hit to the end.
   * Every hit is the first element with its key, so the hits ascend.
   */
  method FindSorted(s: seq<Elem>, sel: seq<int>) returns (foundList: seq<nat>)
    requires SortedBy(s, Key)
    requires SortedBy(sel, Identity) && Distinct(sel)
    requires forall j :: 0 <= j < |sel| ==> Contains(s, sel[j])
    ensures |foundList| == |sel|
    ensures forall j :: 0 <= j < |sel| ==> foundList[j] == Find(s, sel[j]) < |s|
    ensures StrictlyIncreasing(foundList)
  {
    var start := 0;
    foundList := [];
    for i := 0 to |sel|
      invariant |foundList| == i
      invariant Hits(s, sel, foundList)
      invariant start == if i == 0 then 0 else foundList[i - 1] + 1
    {
      SortedIsPartitioned(s, start, |s|, sel[i], Key);
      var f := LowerBound(s, start, |s|, sel[i], Key);
      HitsExtend(s, sel, foundList, start, f);
      foundList := foundList + [f];
      start := f + 1;
    }
  }

  /** foundList holds, in ascending order, the first positions of the first |foundList| keys of sel. */
  ghost predicate Hits(s: seq<Elem>, sel: seq<int>, foundList: seq<nat>)
  {
    |foundList| <= |sel|
    && (forall j :: 0 <= j < |foundList| ==> foundList[j] == Find(s, sel[j]) < |s|)
    && StrictlyIncreasing(foundList)
  }

  /** One round of the search: lower_bound from just after the previous hit finds the next key first. */
  lemma HitsExtend(s: seq<Elem>, sel: seq<int>, foundList: seq<nat>, start: nat, f: nat)
    requires SortedBy(s, Key)
    requires SortedBy(sel, Identity) && Distinct(sel)
    requires Hits(s, sel, foundList) && |foundList| < |sel|
    requires Contains(s, sel[|foundList|])
    requires start == if foundList == [] then 0 else foundList[|foundList| - 1] + 1
    requires start <= f <= |s|
    requires forall p :: start <= p < f ==> s[p].k < sel[|foundList|]
    requires forall p :: f <= p < |s| ==> s[p].k >= sel[|foundList|]
    ensures Hits(s, sel, foundList + [f])
  {
    var i := |foundList|;
    if 0 < i {
      assert sel[i - 1] < sel[i];
      forall j | 0 <= j < start
        ensures s[j].k < sel[i]
      {
        assert s[j].k <= s[foundList[i - 1]].k;
      }
    }
    LowerBoundFindsFirst(s, f, sel[i]);
    assert forall j :: 0 <= j < i ==> foundList[j] < f by {
      forall j | 0 <= j < i
        ensures foundList[j] < f
      {
        if j < i - 1 {
          assert foundList[j] < foundList[i - 1];
        }
      }
    }
  }

  /** The first positions of the selected keys are exactly the hits. */
  lemma FoundAreFirstOccurrences(s: seq<Elem>, sel: seq<int>, selection: seq<int>, foundList: seq<nat>)
    requires multiset(sel) == multiset(selection)
    requires |foundList| == |sel|
    requires forall j :: 0 <= j < |sel| ==> foundList[j] == Find(s, sel[j]) < |s|
    ensures (set p | p in foundList) == FirstOccurrences(s, set x | x in selection)
  {
    forall i | i in FirstOccurrences(s, set x | x in selection)
      ensures i in foundList
    {
      assert s[i].k in multiset(sel);
      var j :| 0 <= j < |sel| && sel[j] == s[i].k;
      assert foundList[j] == i;
    }
    forall j | 0 <= j < |foundList|
      ensures foundList[j] in FirstOccurrences(s, set x | x in selection)
    {
      assert sel[j] in multiset(selection);
    }
  }

  /**
   * Where every key before f is below x, every key from f on is at least x,
   * and x is present, f is the first position holding x.
   */
  lemma LowerBoundFindsFirst(s: seq<Elem>, f: nat, x: int)
    requires SortedBy(s, Key) && Contains(s, x)
    requires f <= |s|
    requires forall j :: 0 <= j < f ==> s[j].k < x
    requires forall j :: f <= j < |s| ==> s[j].k >= x
    ensures f < |s| && Find(s, x) == f
  {
    var p := Find(s, x);
    assert f <= p;
    assert s[f].k <= s[p].k;
  }

  /** BatchInsert: appends the selection and sorts the whole vector again. */
  method BatchInsert(v: Vector, selection: seq<Elem>)
    requires v.Valid()
    modifies v, v.data
    ensures v.Valid()
    ensures SortedBy(v.Elems(), Key)
    ensures multiset(v.Elems()) == multiset(old(v.Elems()) + selection)
    ensures |v.Elems()| == |old(v.Elems())| + |selection|
    ensures forall i :: 0 <= i < |selection| ==> Contains(v.Elems(), selection[i].k)
  {
    v.Append(selection);
    Sort(v.data, v.size, Key);
    InsertedKeysPresent(v.Elems(), old(v.Elems()), selection);
  }

  /** BatchInsertMagic: appends the selection, builds a heap over the whole vector, then sorts it. */
  method BatchInsertMagic(v: Vector, selection: seq<Elem>)
    requires v.Valid()
    modifies v, v.data
    ensures v.Valid()
    ensures SortedBy(v.Elems(), Key)
    ensures multiset(v.Elems()) == multiset(old(v.Elems()) + selection)
    ensures |v.Elems()| == |old(v.Elems())| + |selection|
    ensures forall i :: 0 <= i < |selection| ==> Contains(v.Elems(), selection[i].k)
  {
    v.Append(selection);
    MakeHeap(v.data, v.size, Key);
    Sort(v.data, v.size, Key);
    InsertedKeysPresent(v.Elems(), old(v.Elems()), selection);
  }

  /** A permutation of old ++ selection contains every inserted key. */
  lemma InsertedKeysPresent(r: seq<Elem>, s: seq<Elem>, selection: seq<Elem>)
    requires multiset(r) == multiset(s + selection)
    ensures forall i :: 0 <= i < |selection| ==> Contains(r, selection[i].k)
  {
    forall i | 0 <= i < |selection|
      ensures Contains(r, selection[i].k)
    {
      assert selection[i] in multiset(s + selection);
      var j :| 0 <= j < |r| && r[j] == selection[i];
    }
  }

  /**
   * With pairwise-distinct keys the two insertion strategies cannot differ:
   * both yield a sorted permutation of old ++ selection, and there is only one.
   */
  lemma InsertStrategiesAgree(r1: seq<Elem>, r2: seq<Elem>, s: seq<Elem>, selection: seq<Elem>)
    requires SortedBy(r1, Key) && multiset(r1) == multiset(s + selection)
    requires SortedBy(r2, Key) && multiset(r2) == multiset(s + selection)
    requires forall p, q :: 0 <= p < q < |s + selection| ==> (s + selection)[p].k != (s + selection)[q].k
    ensures r1 == r2
  {
    var t := s + selection;
    forall p, q | 0 <= p < q < |r1| && r1[p].k == r1[q].k
      ensures r1[p] == r1[q]
    {
      assert r1[p] in multiset(t) && r1[q] in multiset(t);
      var i :| 0 <= i < |t| && t[i] == r1[p];
      var j :| 0 <= j < |t| && t[j] == r1[q];
      assert i == j;
    }
    SortedPermutationUnique(r1, r2, Key);
  }

  // ---------------------------------------------------------------------------
  // Test data: CreateVector and RandomSelection

  /** std::iota: 0, 1, ..., n-1. */
  function Iota(n: nat): (r: seq<int>)
    ensures |r| == n && forall i :: 0 <= i < n ==> r[i] == i
  {
    if n == 0 then [] else Iota(n - 1) + [n - 1]
  }

  /** Each of 0..n-1 occurs once in iota(n), and nothing else occurs. */
  lemma {:induction false} IotaCounts(n: nat, x: int)
    ensures multiset(Iota(n))[x] == if 0 <= x < n then 1 else 0
  {
    if n > 0 {
      IotaCounts(n - 1, x);
      assert Iota(n) == Iota(n - 1) + [n - 1];
    }
  }

  /** A possible outcome of std::random_shuffle on iota(n): a permutation of 0..n-1. */
  ghost predicate IsShuffle(nums: seq<int>, n: nat)
  {
    multiset(nums) == multiset(Iota(n))
  }

  /** std::to_string for non-negative numbers: decimal digits, most significant first. */
  function DecimalString(n: nat): (r: string)
    ensures 0 < |r|
    ensures forall i :: 0 <= i < |r| ==> '0' <= r[i] <= '9'
  {
    if n < 10 then ['0' + n as char]
    else DecimalString(n / 10) + ['0' + (n % 10) as char]
  }

  /** The element CreateVector makes for num: Elem{num, std::to_string(num % 100)}. */
  function MakeElem(num: int): (e: Elem)
  {
    Elem(num, DecimalString(num % 100))
  }

  /** The elements built from nums, in the same order. */
  function MakeElems(nums: seq<int>): (r: seq<Elem>)
    ensures |r| == |nums| && forall i :: 0 <= i < |nums| ==> r[i] == MakeElem(nums[i])
  {
    if nums == [] then [] else MakeElems(nums[..|nums| - 1]) + [MakeElem(nums[|nums| - 1])]
  }

  /** MakeElem is one-to-one, so building elements keeps every count. */
  lemma {:induction false} MakeElemsCounts(nums: seq<int>, x: int)
    ensures multiset(MakeElems(nums))[MakeElem(x)] == multiset(nums)[x]
  {
    if nums != [] {
      var last := |nums| - 1;
      MakeElemsCounts(nums[..last], x);
      assert nums == nums[..last] + [nums[last]];
      assert MakeElems(nums) == MakeElems(nums[..last]) + [MakeElem(nums[last])];
    }
  }

  /** Strictly ascending keys, n of them, all in 0..n-1: key i sits at index i. */
  lemma {:induction false} StrictRangeIsIdentity(r: seq<Elem>, i: nat)
    requires StrictlySortedBy(r, Key)
    requires forall j :: 0 <= j < |r| ==> 0 <= r[j].k < |r|
    requires i < |r|
    ensures r[i].k == i
  {
    KeyAtLeastIndex(r, i);
    KeyAtMostIndex(r, i);
  }

  lemma {:induction false} KeyAtLeastIndex(r: seq<Elem>, i: nat)
    requires StrictlySortedBy(r, Key)
    requires forall j :: 0 <= j < |r| ==> 0 <= r[j].k
    requires i < |r|
    ensures r[i].k >= i
  {
    if i > 0 {
      KeyAtLeastIndex(r, i - 1);
    }
  }

  lemma {:induction false} KeyAtMostIndex(r: seq<Elem>, i: nat)
    requires StrictlySortedBy(r, Key)
    requires forall j :: 0 <= j < |r| ==> r[j].k < |r|
    requires i < |r|
    ensures r[i].k <= i
    decreases |r| - i
  {
    if i < |r| - 1 {
      KeyAtMostIndex(r, i + 1);
    }
  }

  /**
   * Sorting the elements built from any shuffle of 0..n-1 puts element i,
   * Elem{i, to_string(i % 100)}, at index i.
   */
  lemma SortedShuffleIsCanonical(r: seq<Elem>, nums: seq<int>, n: nat)
    requires IsShuffle(nums, n)
    requires SortedBy(r, Key) && multiset(r) == multiset(MakeElems(nums))
    ensures |r| == n
    ensures forall i :: 0 <= i < n ==> r[i] == MakeElem(i)
  {
    assert |r| == |multiset(r)| == |MakeElems(nums)| == |nums| == |multiset(Iota(n))| == n;
    ShuffleElemsAreMade(r, nums, n);
    ShuffleElemsStrictlySorted(r, nums, n);
    forall i | 0 <= i < n
      ensures r[i] == MakeElem(i)
    {
      StrictRangeIsIdentity(r, i);
    }
  }

  /** Every element built from a shuffle of 0..n-1 is the element made for its key, a key below n. */
  lemma ShuffleElemsAreMade(r: seq<Elem>, nums: seq<int>, n: nat)
    requires IsShuffle(nums, n)
    requires multiset(r) == multiset(MakeElems(nums))
    ensures forall j :: 0 <= j < |r| ==> 0 <= r[j].k < n && r[j] == MakeElem(r[j].k)
  {
    forall j | 0 <= j < |r|
      ensures 0 <= r[j].k < n && r[j] == MakeElem(r[j].k)
    {
      assert r[j] in multiset(MakeElems(nums));
      var i :| 0 <= i < |nums| && MakeElems(nums)[i] == r[j];
      assert nums[i] in multiset(Iota(n));
      IotaCounts(n, nums[i]);
    }
  }

  /** No key occurs twice among the elements built from a shuffle, so sorted means strictly sorted. */
  lemma ShuffleElemsStrictlySorted(r: seq<Elem>, nums: seq<int>, n: nat)
    requires IsShuffle(nums, n)
    requires SortedBy(r, Key) && multiset(r) == multiset(MakeElems(nums))
    requires forall j :: 0 <= j < |r| ==> 0 <= r[j].k < n && r[j] == MakeElem(r[j].k)
    ensures StrictlySortedBy(r, Key)
  {
    forall p, q | 0 <= p < q < |r|
      ensures r[p].k < r[q].k
    {
      if r[p].k == r[q].k {
        var x := r[p].k;
        RepeatedCountsTwice(r, p, q);
        MakeElemsCounts(nums, x);
        IotaCounts(n, x);
        assert false;
      }
    }
  }

  /**
   * CreateVector: builds Elem{num, to_string(num % 100)} for every num of a
   * shuffle of 0..size-1 and sorts them. Whatever the shuffle, the result holds
   * key i at index i.
   */
  method CreateVector(size: nat, nums: seq<int>) returns (v: Vector)
    requires IsShuffle(nums, size)
    ensures fresh(v) && fresh(v.data) && v.Valid()
    ensures |v.Elems()| == size
    ensures forall i :: 0 <= i < size ==> v.Elems()[i] == MakeElem(i)
  {
    v := new Vector.Reserve(size);
    assert |nums| == |multiset(nums)| == |Iota(size)| == size;
    for i := 0 to |nums|
      invariant v.Valid() && fresh(v) && fresh(v.data)
      invariant v.Elems() == MakeElems(nums[..i])
    {
      v.PushBack(MakeElem(nums[i]));
      assert nums[..i + 1][..i] == nums[..i];
    }
    assert nums[..|nums|] == nums;
    Sort(v.data, v.size, Key);
    SortedShuffleIsCanonical(v.Elems(), nums, size);
  }

  /**
   * RandomSelection: the first selectSize numbers of a shuffle of 0..size-1 --
   * distinct keys, all present in CreateVector(size).
   */
  function RandomSelection(size: nat, selectSize: nat, nums: seq<int>): (r: seq<int>)
    requires selectSize < size
    requires IsShuffle(nums, size)
    ensures |r| == selectSize
    ensures Distinct(r)
    ensures forall i :: 0 <= i < |r| ==> 0 <= r[i] < size
  {
    assert |nums| == |multiset(nums)| == |Iota(size)| == size;
    ShuffleIsDistinctRange(nums, size);
    nums[..selectSize]
  }

  /** A shuffle of 0..n-1 repeats nothing and holds only numbers below n. */
  lemma ShuffleIsDistinctRange(nums: seq<int>, n: nat)
    requires IsShuffle(nums, n)
    ensures Distinct(nums)
    ensures forall i :: 0 <= i < |nums| ==> 0 <= nums[i] < n
  {
    forall p, q | 0 <= p < q < |nums|
      ensures nums[p] != nums[q]
    {
      if nums[p] == nums[q] {
        RepeatedCountsTwice(nums, p, q);
        IotaCounts(n, nums[p]);
      }
    }
    forall i | 0 <= i < |nums|
      ensures 0 <= nums[i] < n
    {
      assert nums[i] in multiset(nums);
      IotaCounts(n, nums[i]);
    }
  }
}

=== FILE: timings_tests.dfy ===
/**
 * The GTest cases of timings.cpp as client methods: each runs the operations
 * on a vector built by CreateVector from an arbitrary shuffle and promises in
 * its ensures what the test's EXPECT lines check. The shuffle outcomes are
 * parameters, so each scenario holds for every outcome of std::random_shuffle.
 */
module SortedVectorTests {
  import opened Algorithms
  import opened SortedVector

  /** The elements a vector built by CreateVector(n) starts with: key i at index i. */
  ghost predicate Canonical(s: seq<Elem>, n: nat)
  {
    |s| == n && forall i :: 0 <= i < n ==> s[i] == MakeElem(i)
  }

  /** Canonical elements ascend strictly by key. */
  lemma CanonicalStrictlySorted(s: seq<Elem>, n: nat)
    requires Canonical(s, n)
    ensures StrictlySortedBy(s, Key)
  {
  }

  /** Every number below n is a key of the canonical elements; no other number is. */
  lemma CanonicalContains(s: seq<Elem>, n: nat, x: int)
    requires Canonical(s, n)
    ensures Contains(s, x) <==> 0 <= x < n
  {
    if 0 <= x < n {
      assert s[x].k == x;
    }
  }

  /** Erasing positions 0, 2 and 4 of five leaves the elements at 1 and 3. */
  lemma EraseEvenOfFive<T>(s: seq<T>)
    requires |s| == 5
    ensures Without(s, set p | p in [0, 2, 4]) == [s[1], s[3]]
  {
    var drop := {0, 2, 4};
    assert (set p | p in [0, 2, 4]) == drop;
    assert s[..0] == [] && s[..5] == s;
    WithoutStep(s, 0, drop);
    assert Without(s[..1], drop) == [];
    WithoutStep(s, 1, drop);
    assert Without(s[..2], drop) == [s[1]];
    WithoutStep(s, 2, drop);
    assert Without(s[..3], drop) == [s[1]];
    WithoutStep(s, 3, drop);
    assert Without(s[..4], drop) == [s[1], s[3]];
    WithoutStep(s, 4, drop);
    assert Without(s[..5], drop) == [s[1], s[3]];
  }

  /** Erasing positions 0, 2 and 3 of five leaves the elements at 1 and 4. */
  lemma EraseHeadOfFive<T>(s: seq<T>)
    requires |s| == 5
    ensures Without(s, set p | p in [0, 2, 3]) == [s[1], s[4]]
  {
    var drop := {0, 2, 3};
    assert (set p | p in [0, 2, 3]) == drop;
    assert s[..0] == [] && s[..5] == s;
    WithoutStep(s, 0, drop);
    assert Without(s[..1], drop) == [];
    WithoutStep(s, 1, drop);
    assert Without(s[..2], drop) == [s[1]];
    WithoutStep(s, 2, drop);
    assert Without(s[..3], drop) == [s[1]];
    WithoutStep(s, 3, drop);
    assert Without(s[..4], drop) == [s[1]];
    WithoutStep(s, 4, drop);
    assert Without(s[..5], drop) == [s[1], s[4]];
  }

  /** The payloads CreateVector gives keys 0, 50 and 99; a solver aid for CreateScenario. */
  lemma CreatePayloads()
    ensures MakeElem(0).v == "0" && MakeElem(50).v == "50" && MakeElem(99).v == "99"
  {
  }

  /** TEST(SortedVector, Create): size 100, and the payloads at 0, 50 and 99 read "0", "50" and "99". */
  method CreateScenario(nums: seq<int>) returns (r: seq<Elem>)
    requires IsShuffle(nums, 100)
    ensures |r| == 100
    ensures r[0].v == "0" && r[50].v == "50" && r[99].v == "99"
  {
    var v := CreateVector(100, nums);
    r := v.data[..v.size];
    CreatePayloads();
    assert r[50] == MakeElem(50) && r[99] == MakeElem(99) && r[0] == MakeElem(0);
  }

  /** TEST(SortedVector, BatchErase), "delete end": erasing positions 0, 2 and 4 of five leaves keys 1 and 3. */
  method EraseEndScenario(nums: seq<int>) returns (r: seq<Elem>)
    requires IsShuffle(nums, 5)
    ensures |r| == 2 && r[0].k == 1 && r[1].k == 3
  {
    var v := CreateVector(5, nums);
    ghost var s := v.Elems();
    BatchErase(v, [0, 2, 4]);
    r := v.data[..v.size];
    EraseEvenOfFive(s);
    assert s[1] == MakeElem(1) && s[3] == MakeElem(3);
  }

  /** TEST(SortedVector, BatchErase), "don't delete end": erasing positions 0, 2 and 3 of five leaves keys 1 and 4. */
  method EraseMiddleScenario(nums: seq<int>) returns (r: seq<Elem>)
    requires IsShuffle(nums, 5)
    ensures |r| == 2 && r[0].k == 1 && r[1].k == 4
  {
    var v := CreateVector(5, nums);
    ghost var s := v.Elems();
    BatchErase(v, [0, 2, 3]);
    r := v.data[..v.size];
    EraseHeadOfFive(s);
    assert s[1] == MakeElem(1) && s[4] == MakeElem(4);
  }

  /**
   * BatchDelete on a vector built by CreateVector(n): the survivors ascend,
   * there are n - |selection| of them, and a number is among their keys
   * exactly when it is below n and was not selected.
   */
  method DeleteFromCanonical(v: Vector, n: nat, selection: seq<int>)
    requires v.Valid() && Canonical(v.Elems(), n)
    requires |selection| > 0 && Distinct(selection)
    requires forall x :: x in selection ==> 0 <= x < n
    modifies v.data, v`size
    ensures v.Valid() && SortedBy(v.Elems(), Key)
    ensures |v.Elems()| == n - |selection|
    ensures forall x :: Contains(v.Elems(), x) <==> 0 <= x < n && x !in selection
  {
    ghost var s := v.Elems();
    CanonicalStrictlySorted(s, n);
    forall x | x in selection
      ensures Contains(s, x)
    {
      CanonicalContains(s, n, x);
    }
    BatchDelete(v, selection);
    forall x
      ensures Contains(v.Elems(), x) <==> 0 <= x < n && x !in selection
    {
      DeletedKeysGone(s, (set y | y in selection), x);
      CanonicalContains(s, n, x);
    }
  }

  /** TEST(SortedVector, MultiDeleteBug): deleting keys 1, 10, 98 and 99 from 100 leaves 96 sorted elements without them. */
  method MultiDeleteBugScenario(nums: seq<int>) returns (r: seq<Elem>)
    requires IsShuffle(nums, 100)
    ensures |r| == 96 && SortedBy(r, Key)
    ensures forall x :: x in [1, 10, 98, 99] ==> !Contains(r, x)
    ensures forall x :: 0 <= x < 100 && x !in [1, 10, 98, 99] ==> Contains(r, x)
  {
    var v := CreateVector(100, nums);
    DeleteFromCanonical(v, 100, [1, 10, 98, 99]);
    r := v.data[..v.size];
  }

  /** TEST(SortedVector, MultiDelete): deleting a random selection of 10 from 100 leaves 90 sorted elements without them. */
  method MultiDeleteScenario(nums: seq<int>, pick: seq<int>) returns (selection: seq<int>, r: seq<Elem>)
    requires IsShuffle(nums, 100) && IsShuffle(pick, 100)
    ensures |selection| == 10
    ensures |r| == 90 && SortedBy(r, Key)
    ensures forall x :: x in selection ==> !Contains(r, x)
  {
    var v := CreateVector(100, nums);
    selection := RandomSelection(100, 10, pick);
    DeleteFromCanonical(v, 100, selection);
    r := v.data[..v.size];
  }

  /**
   * TEST(SortedVector, Insert) and TEST(SortedVector, InsertMagic): deleting a
   * random selection of 10 and inserting Elem{r, to_string(r)} for each
   * selected r, with BatchInsert or (magic) BatchInsertMagic, gives back 100
   * sorted elements containing every selected key.
   */
  method InsertScenario(nums: seq<int>, pick: seq<int>, magic: bool) returns (selection: seq<int>, r: seq<Elem>)
    requires IsShuffle(nums, 100) && IsShuffle(pick, 100)
    ensures |selection| == 10
    ensures |r| == 100 && SortedBy(r, Key)
    ensures forall x :: x in selection ==> Contains(r, x)
  {
    var v := CreateVector(100, nums);
    selection := RandomSelection(100, 10, pick);
    DeleteFromCanonical(v, 100, selection);
    var newElems := seq(|selection|, i requires 0 <= i < |selection| => Elem(selection[i], DecimalString(selection[i])));
    if magic {
      BatchInsertMagic(v, newElems);
    } else {
      BatchInsert(v, newElems);
    }
    r := v.data[..v.size];
    forall x | x in selection
      ensures Contains(r, x)
    {
      var i :| 0 <= i < |selection| && selection[i] == x;
      assert newElems[i].k == x;
    }
  }
}
